=== FILE: README.md ===
# C550 utility tool — a Dafny model of its core

The C550 utility tool is a Node.js command-line program with three modes.
In config mode it watches the host for USB serial ports. When a C550
controller appears, the tool asks for its identity and pushes a
configuration file to it. Update mode does not watch for ports. It opens the
port named by `-port` at once and streams a firmware image to it in
acknowledged 2048-byte blocks. A2L mode walks the Modbus address table of
A2L refrigerant-leak sensors. It either reports what each sensor says, or
gives a freshly plugged sensor a chosen address.

This project models the deterministic logic inside that plumbing as pure
Dafny functions and proves properties about it:

| file | module | models |
|---|---|---|
| wrappers.dfy | `Wrappers` | `Option`, used for JavaScript's `undefined`, `-1` and NaN |
| text.dfy | `Text` | `split` on a character, `indexOf`/`includes`, and `split(sep)[1]` |
| serial_layer.dfy | `SerialLayer` | the hot-plug diff `detect_serial_port_change`, including a failed enumeration, and the polling loop `serial_port_list_poll` |
| classifiers.dfy | `Classifiers` | the four reply classifiers `parse_ota_len_cb`, `parse_ota_data_cb`, `parse_mac_cb`, `parse_config_cb` |
| transaction.dfy | `Transaction` | the `data` handler of `run_serial_command`, as a fold over received chunks |
| ota.dfy | `Ota` | the gating and block loop of `test_update`, and the decision sequence of `test_command` |
| a2l_modbus.dfy | `A2lModbus` | the register map and lookup tables, serial-number decoding, telemetry indexing, and one pass of `scan_for_sensors` |
| args.dfy | `Args` | `process_args` over `argv` and two key→value tables |
| cli.dfy | `Cli` | the mode dispatch and sensor-mode validation of index.js |

The model abstracts the outside world as follows:
- **Serial ports:** each port enumeration is an input, `None` when `SerialPort.list()` rejects.
- **Files:** the firmware image and the configuration text are inputs, `None` when `fs.readFileSync` throws.
- **Standard output:** whether it is a terminal is a boolean input. Only on a terminal does `process.stdout.clearLine` exist.
- **Controller replies:** the chunks a port delivers are a sequence of strings. The reply to each transaction is a `Status`.
- **Modbus client:** the client is an oracle, `A2lModbus.Bus`. It is a pair of functions saying which reads and writes succeed and what the reads return.
- **`parseInt`:** it is a parameter of type `string -> Option<int>`, with `None` standing for NaN.

A transaction's result codes are `Ok`, `Failed`, `TimedOut` and `Pending`. They correspond to the source's numbers 0, -1, -2 and 1.

## Model

| member | source | states |
|---|---|---|
| SerialLayer.Arrivals | src/serial_layer.js:48-67 | every emitted event is `port_added`, carries an entry of the new enumeration, and its path is absent from the old snapshot |
| SerialLayer.Departures | src/serial_layer.js:69-88 | every emitted event is `port_lost`, carries an entry of the old snapshot, and its path is absent from the new enumeration |
| SerialLayer.ArrivalsCount | src/serial_layer.js:48-67 | an entry whose path was not known produces exactly one `port_added` event per occurrence; a known path produces none |
| SerialLayer.DeparturesCount | src/serial_layer.js:69-88 | a snapshot entry whose path vanished produces exactly one `port_lost` event per occurrence; a present path produces none |
| SerialLayer.DetectChange | src/serial_layer.js:44-91 | the snapshot becomes the new enumeration in every case; all added events precede all lost events; no event names a path present in both lists; without an emitter nothing is emitted |
| SerialLayer.AddedExactlyOnce | src/serial_layer.js:48-67 | over a whole call, the number of `port_added` events for a port is its multiplicity in the new list if its path is new, else zero |
| SerialLayer.LostExactlyOnce | src/serial_layer.js:69-88 | over a whole call, the number of `port_lost` events for a port is its multiplicity in the old list if its path vanished, else zero |
| SerialLayer.Baseline | src/serial_layer.js:94-96 | the baseline call emits nothing and still installs the enumeration as the snapshot |
| SerialLayer.NoArrivals | src/serial_layer.js:54-58 | when every path of the new list is already known, no `port_added` event is produced |
| SerialLayer.NoDepartures | src/serial_layer.js:75-79 | when every path of the old list is still present, no `port_lost` event is produced |
| SerialLayer.PollIdempotent | src/serial_layer.js:44-91 | polling an unchanged enumeration emits no event |
| SerialLayer.Poll | src/serial_layer.js:44-46 | a failed enumeration leaves the detector at once: no event, snapshot kept; a successful one becomes the snapshot; without an emitter nothing is emitted |
| SerialLayer.Watch | src/serial_layer.js:94-103 | a failed baseline rejects before the loop, so nothing is ever reported and the snapshot stays the initial empty list (line 30); otherwise the snapshot ends as the last enumeration that succeeded |
| SerialLayer.WatchFrom | src/serial_layer.js:98-102 | when every poll fails, nothing is reported and the snapshot is unchanged; otherwise the snapshot is the last successful enumeration |
| SerialLayer.FailedPollIgnored | src/serial_layer.js:94-103 | inserting a failed enumeration anywhere in a run changes neither the events reported nor the final snapshot |
| SerialLayer.AttachThenDetach | src/serial_layer.js:94-103 | a port that appears, stays for a poll and leaves yields exactly one added and then one lost event |
| Text.Split | src/c550_lib.js:172 | `split('\r')` yields at least one piece, no piece holds the separator, and joining the pieces with it gives back the text |
| Text.SplitJoin | src/c550_lib.js:172 | splitting is the inverse of joining separator-free pieces |
| Text.ContainsIff | src/c550_lib.js:176 | `includes` holds exactly when the marker occurs at some position |
| Text.SecondField | src/c550_lib.js:236 | `split('SSID: ')[1]` is undefined exactly when the separator is absent; otherwise it is text found right after the first separator, and it holds no separator |
| Text.SecondFieldEnd | src/c550_lib.js:236 | the field runs up to the next separator or to the end of the text |
| Classifiers.CompletedLines | src/c550_lib.js:172-173 | after `pop()`, the lines left are the carriage-return-free pieces before the last carriage return |
| Classifiers.CompletedLinesOnly | src/c550_lib.js:172-173 | text after the last carriage return never becomes a line; text with no carriage return has no lines |
| Classifiers.CompletedLinesGrow | src/c550_lib.js:172-173 | the completed lines of a buffer are a prefix of the completed lines of any longer buffer |
| Classifiers.FirstVerdict | src/c550_lib.js:174-187 | never a timeout; Ok only if some line carries the acknowledgement, Failed only if some line carries the failure marker (the full first-marked-line rule is FirstVerdictSpec) |
| Classifiers.FirstVerdictSpec | src/c550_lib.js:174-187 | the line loop yields Pending iff no line holds either marker; otherwise the first marked line decides, Ok iff it holds the acknowledgement (both markers resolve Ok) |
| Classifiers.FirstVerdictAppend | src/c550_lib.js:174-187 | the loop never looks past the first decided line |
| Classifiers.AckVerdict | src/c550_lib.js:172-187 | the acknowledgement classifiers decide by the first completed line carrying a marker, and return Pending without one |
| Classifiers.AckVerdictStable | src/c550_lib.js:167-188 | once Ok or Failed, more received text cannot change an acknowledgement classifier's verdict |
| Classifiers.ParseOtaLen | src/c550_lib.js:167-188 | `parse_ota_len_cb` decides by the first completed line holding `>update,len,ACK` or `>update,FAIL`, and carries no data |
| Classifiers.ParseOtaData | src/c550_lib.js:196-217 | `parse_ota_data_cb` decides by the first completed line holding `>update,data,` or `>update,FAIL`, and carries no data |
| Classifiers.ParseConfig | src/c550_lib.js:246-266 | `parse_config_cb` decides by the first piece holding `>json-cfg,OK` or `>json-cfg,FAIL`, the unterminated last piece included |
| Classifiers.MacScan | src/c550_lib.js:232-242 | Ok iff some line holds `SSID: C550`, never Failed; on Ok the SSID is the field after the first `SSID: ` of the first such line |
| Classifiers.ParseMac | src/c550_lib.js:225-244 | `parse_mac_cb` is never Failed; it carries an SSID exactly when it is Ok, which is exactly when a completed line holds `SSID: C550` |
| Classifiers.PartialLineIgnored | src/c550_lib.js:167-244 | the three line-terminated classifiers give the same verdict whatever follows the last carriage return |
| Classifiers.NoTerminatorPending | src/c550_lib.js:167-244 | without a carriage return the three line-terminated classifiers are Pending with no data |
| Classifiers.ConfigReadsTrailingPiece | src/c550_lib.js:251-265 | an unterminated trailing `>json-cfg,OK` already makes the configuration classifier Ok |
| Classifiers.TwoCompletedLines | src/c550_lib.js:172-173 | two carriage-return-terminated lines are exactly the completed lines |
| Classifiers.OtaLenAckAfterNoise | src/c550_lib.js:174-187 | an unmarked completed line followed by a completed acknowledgement line gives Ok |
| Classifiers.OtaLenAckLine | src/c550_lib.js:167-188 | the reply "garbage", CR, `>update,len,ACK`, CR is Ok |
| Transaction.Initial | src/c550_lib.js:80-83 | a transaction starts as a timeout with no data |
| Transaction.Feed | src/c550_lib.js:118-139 | every data event keeps the result either untouched (port open) or settled as Ok with "Test Passed" or as the initial result turned Failed; a closed port changes nothing |
| Transaction.Run | src/c550_lib.js:77-160 | the result is Ok, Failed or a timeout; only Ok reads "Test Passed"; every other result keeps "Failed command: …" and no data; a port that never opens leaves the timeout |
| Transaction.OnData | src/c550_lib.js:118-139 | a closed port ignores the chunk; an open one appends it and closes exactly when the classifier's verdict on the whole text is Ok or Failed; while open the result is untouched; every consistent session stays consistent |
| Transaction.Buffers | src/c550_lib.js:121-122 | one accumulated text per chunk: the text a classifier would receive after that chunk |
| Transaction.BuffersAccumulate | src/c550_lib.js:121-122 | the classifier's argument after chunk i is all chunks 0..i concatenated |
| Transaction.FeedSettles | src/c550_lib.js:118-139 | the port stays open iff no accumulated buffer is settled; otherwise the first settled buffer fixes the code, and only an Ok copies its data |
| Transaction.RunSettles | src/c550_lib.js:80-139 | the code stays a timeout unless the classifier says Ok or Failed on a buffer; the first such verdict counts and only Ok carries data |
| Transaction.AckTransaction | src/c550_lib.js:118-139 | with an acknowledgement classifier, the code is the verdict on everything received, a pending verdict reading as a timeout |
| Ota.Slice | src/c550_lib.js:336 | `Buffer.slice` clamps both ends to the buffer, so a slice never exceeds the data |
| Ota.Block | src/c550_lib.js:336 | block k is the image's bytes from k*2048 up to 2048 further or the end of the image; a block starting past the end is empty |
| Ota.BlockCountExact | src/c550_lib.js:334-340 | a block count that covers the image with a non-empty last block is the rounded-up quotient by 2048 |
| Ota.BlockCountBound | src/c550_lib.js:334-336 | a block that starts inside the image is among the first ceil(len/2048) blocks |
| Ota.Blocks | src/c550_lib.js:334-340 | the first n block transactions are n long |
| Ota.BlocksAt | src/c550_lib.js:334-340 | block transaction k carries the slice at k*2048 |
| Ota.BlocksPayload | src/c550_lib.js:336-340 | blocks that each start inside the image carry the image up to where the last one ends, in order |
| Ota.PayloadSnoc | src/c550_lib.js:336-337 | sending one more block appends exactly that block's bytes to what the run has delivered |
| Ota.PayloadStep | src/c550_lib.js:336-340 | a block sent from the offset reached so far extends the delivered bytes to where that block ends |
| Ota.LoadedPayload | src/c550_lib.js:333-351 | blocks that cover the image, the last one starting inside it, deliver exactly the image |
| Ota.RefusedPayload | src/c550_lib.js:333-347 | before a refused block, the run has delivered the image up to that block's offset |
| Ota.SendBlocks | src/c550_lib.js:332-351 | block k sent is the slice at k*2048; every block but the last sent was acknowledged; success means exactly ceil(len/2048) blocks, all acknowledged; a refusal reports the offset of the refused block, which lies inside the image |
| Ota.HeaderThenBlocks | src/c550_lib.js:317-336 | after the identity query and the length announcement, transaction k carries block k-2 |
| Ota.HeaderThenBlocksPayload | src/c550_lib.js:317-340 | the header carries no bytes, so the whole run carries the image up to where its last block ends |
| Ota.LoadFirstBlock | src/c550_lib.js:332-343 | off a terminal, exactly one block goes out: a refusal reports offset 0, an acknowledgement ends the update in the exception handler after the first 2048 bytes |
| Ota.LoadEveryBlock | src/c550_lib.js:326-351 | on a terminal the run loads iff every block was acknowledged; loading delivers exactly the image; a refusal's offset equals the bytes acknowledged before it |
| Ota.LoadBlocks | src/c550_lib.js:326-365 | after both checks the run loads iff every block was acknowledged and either output is a terminal or the image is empty; it is aborted iff output is not a terminal and a non-empty image's first block was acknowledged |
| Ota.UpdateImage | src/c550_lib.js:315-365 | no block is sent unless the identity query and the length announcement both succeeded; the update loads iff both did, every block was acknowledged and the progress redraw could run; a refusal's offset is the acknowledged byte count |
| Ota.Update | src/c550_lib.js:311-366 | an unreadable image ends the update in the exception handler before any transaction; otherwise the identity query goes first, and a loaded run carried exactly the image |
| Ota.FiveThousandBytes | src/c550_lib.js:333-336 | a 5000-byte image goes out as blocks of 2048, 2048 and 904 bytes |
| Ota.ProvisionConfig | src/c550_lib.js:374-414 | an unreadable configuration ends the run in the exception handler with nothing sent and no exit; the run aborts only then; otherwise the configuration is pushed iff the identity query succeeded; after the push an explicit refusal is `ConfigInvalid` and any other non-Ok reply is `ConfigNotLoaded`; the process exits only after a successful push with run-once set |
| A2lModbus.SerialNumber | src/a2l_modbus.js:81-87 | each register word contributes its low byte, then its high byte, as characters, in register order |
| A2lModbus.SerialNumberOfPack | src/a2l_modbus.js:81-87 | decoding the words that store a byte-sized serial number gives it back |
| A2lModbus.PackOfSerialNumber | src/a2l_modbus.js:81-87 | decoding loses nothing: the words can be rebuilt from the serial number |
| A2lModbus.SerialNumberLength | src/a2l_modbus.js:81-87 | six serial-number registers give twelve characters |
| A2lModbus.Field | src/a2l_modbus.js:60-66 | `data[reg - 10]` is defined exactly when the register lies within the block, and is then that word |
| A2lModbus.GasName | src/a2l_modbus.js:48-53 | a gas name exists exactly for the five codes 4146, 5204, 5205, 5210, 5212, and it is the table's entry for that code |
| A2lModbus.StatusName | src/a2l_modbus.js:56 | a status name exists exactly for codes 0 to 4, and code i names entry i of the status list |
| A2lModbus.Decode | src/a2l_modbus.js:60-66 | on a 14-word block each numeric field is the word at its register's distance from register 10; the status and gas fields are the names of the words at registers 20 and 23 |
| A2lModbus.NamesOfCodes | src/a2l_modbus.js:48-56 | 4146, 5204, 5212, 5210 and 5205 name R32, R454B, R454C, R454A and R455A; statuses 0 to 4 are Unknown, Startup, Normal, Reserved and Fault; other codes have no name |
| A2lModbus.RegistersInBlock | src/a2l_modbus.js:36-46 | registers 10, 13, 14 and 18–23, less 10, index inside the 14-word block |
| A2lModbus.FullBlockDecodes | src/a2l_modbus.js:60-66 | a full telemetry block yields every register the report uses |
| A2lModbus.GasTableSize | src/a2l_modbus.js:48-53 | the gas table has exactly five codes |
| A2lModbus.AddressesDistinct | src/a2l_modbus.js:55 | no address appears twice in the table |
| A2lModbus.Skips | src/a2l_modbus.js:73 | an address is skipped exactly in assign mode, when it is the address about to be given away |
| A2lModbus.Probe | src/a2l_modbus.js:73-76 | a visit names its address, and is skipped iff assign mode targets that address |
| A2lModbus.ProbeTransfers | src/a2l_modbus.js:78-104 | a skipped visit asks for nothing; otherwise the serial number is read first; telemetry is read only in scan mode and the address write only in assign mode, both only after that read succeeded; the write puts the configured address in register 0 |
| A2lModbus.ScanFrom | src/a2l_modbus.js:70-114 | the walk visits table entries in order, and covers the whole table unless it exited |
| A2lModbus.ScanFromExits | src/a2l_modbus.js:106-109 | the walk stops early only at a visit that completed under run-once, and that visit is the last |
| A2lModbus.Scan | src/a2l_modbus.js:68-115 | a pass visits entry k at position k; failures never cut the walk short; an exit happens at the first completed visit and ends the pass |
| A2lModbus.VisitOrder | src/a2l_modbus.js:55-70 | visits follow table order and no address is visited twice |
| A2lModbus.SkipRule | src/a2l_modbus.js:73-76 | an entry is skipped iff the mode is assign and the entry equals the configured address |
| A2lModbus.ScanModeSkipsNothing | src/a2l_modbus.js:73-76 | scan mode skips no entry |
| A2lModbus.OnlyTargetSkipped | src/a2l_modbus.js:73-76 | in a table without repeats, the visits skipped for holding the target are exactly the one at its position |
| A2lModbus.AssignSkipsExactlyOne | src/a2l_modbus.js:73-76 | assigning a table address without run-once, a pass skips exactly one entry |
| A2lModbus.ExitRule | src/a2l_modbus.js:106-109 | the process exits iff some visit completed while run-once is set |
| A2lModbus.ProbeJustified | src/a2l_modbus.js:78-104 | within one visit, writes and telemetry reads follow a successful serial-number read at the same address |
| A2lModbus.OpsJustified | src/a2l_modbus.js:78-104 | the rule holds for the transfers of any sequence of visits |
| A2lModbus.PassJustified | src/a2l_modbus.js:89-104 | over a whole pass, a register write happens only in assign mode, writes the configured address into register 0, and follows a successful serial-number read; telemetry is read only in scan mode after one |
| A2lModbus.FreshSensorReassigned | src/a2l_modbus.js:68-109 | a sensor answering on 0x55 is visited first, given the configured address, and ends the process under run-once |
| Args.FlagIndex | src/args.js:37 | `argv.indexOf('-' + key)` is the first index holding the flag, and -1 exactly when the flag is absent |
| Args.TokenAfter | src/args.js:42 | `argv[argI + 1]` is the following token, or undefined past the end |
| Args.Coerce | src/args.js:44-54 | a number-typed key stays number-typed (`parseInt` of the token, NaN when there is nothing to parse); any other key takes the raw token, or undefined |
| Args.Lookup | src/args.js:37-54 | a key whose flag is absent keeps its default; the value keeps the default's number-or-not type; a non-number key takes the token after the flag's first occurrence, or undefined when the flag is last |
| Args.Assign | src/args.js:65-82 | the loop never adds or removes a key |
| Args.ProcessArgs | src/args.js:32-84 | a missing required flag exits with status 1 unless ignored; both tables keep their keys |
| Args.ExitIff | src/args.js:34-62 | the process exits iff a required flag is missing and requirements are not ignored; the return value is true iff every required flag is present |
| Args.ValueOfKey | src/args.js:65-82 | a key whose flag is absent keeps its default; otherwise it takes the token after the flag's first occurrence, coerced by the key's type |
| Args.TypesKept | src/args.js:44-54 | no key changes between number-typed and not |
| Args.TrailingFlag | src/args.js:68 | a string-typed flag given last on the line makes its key undefined |
| Cli.Truthy | src/c550_lib.js:397 | JavaScript truthiness of `run_once`: a non-zero number or a non-empty string; 0, NaN, the empty string and undefined are falsy |
| Cli.Options | index.js:71-72 | parsing the optional defaults always returns the five keys file, mode, adr, port and run_once |
| Cli.SensorMode | index.js:98-113 | port `'null'` is refused first; address 0 starts a scan; a nonzero address must be a table entry, and is then assigned; anything else is refused |
| Cli.Decide | index.js:71-118 | `config`, `a2l` and `update` each start their own workflow; any other mode starts nothing |
| Cli.NoFlags | index.js:71-79 | without flags the tool watches ports and configures controllers from c550_config_default.txt, without exiting |
| Cli.SensorAddressChecked | index.js:101-112 | a sensor server never starts on port `'null'`, and starts only to scan or to assign a table address |
| Cli.AssignSkipIsReal | index.js:71-113 | `-mode a2l -port P -adr A`, with A parsing to a table address, starts a server whose every pass skips exactly one real table entry |
| Cli.AssignFromCommandLine | index.js:71-113 | `-mode a2l -port P -adr A`, with A parsing to a table address, starts a server on P assigning A, without run-once |

## Left out

- src/log.js: console and file output, colours and timestamps carry nothing to verify.
- Timers, `sync_open_port` and the port's `open`, `close` and `error` events are not modelled. The same holds for the write-retry loop of `run_serial_command` and `u.sleep`. A transaction is the ordered list of chunks the port delivered before it closed. A port that never opens leaves the initial timeout result, which matches what the source's timeout callback resolves.
- Transaction.Feed: it assumes no `data` event arrives after `port.close()` is called. In the source such an event could still run the handler and overwrite the result, but that race depends on the event loop.
- `SerialPort.list()`, the `ModbusRTU` client and `fs.readFileSync` are foreign I/O. The model takes their results as inputs: enumerations or their failure, a `Bus` oracle, and the firmware and configuration contents or their failure.
- Ota.Update: the blocks are recorded as raw bytes, not in the base64 form the command line carries. Base64 is a library call.
- Floating-point scaling (`/10`, `/100`) in `print_sensor_data` is not modelled. Nor are the progress percentage and elapsed time printed during an update. `Decode` returns the raw register words.
- The infinite `while(1)` loops of `serial_port_list_poll` and `start_server` are modelled as finite runs: `Watch` is a finite list of polls and `Scan` is one pass. The 500 ms sleep between polls is timing and is left out.
- `process.exit` becomes a flag in the result (`exited`, `exits`, `Exit`), except in `test_update`: its `process.exit(0)` (c550_lib.js line 354) follows every successful load, so the outcome `Loaded` stands for it. An exception caught inside `test_update` or `test_command` becomes the outcome `Aborted` or `ConfigAborted`, which does not exit. A rejected enumeration reaches the `uncaughtException` handler in index.js (lines 32-50). That handler only logs and waits for a key, so the model keeps polling and leaves out the key wait. Other output side effects of `process.stdout`, such as the cursor moves, are left out.
- The un-awaited `detect_serial_port_change(emitter)` inside the poll loop is treated as finishing before the next poll starts. Overlapping calls are a timing race.
- `parseInt` semantics (hex prefixes, trailing garbage, NaN) are a parameter.
- Args.ProcessArgs: `ignoreRequired` is a boolean. The source compares it loosely with `true`, which treats the boolean the same way.
- Args: object keys are iterated as a map, which has no order. Each key's value depends only on `argv`, so the order of the source's `for … in` loop cannot matter.
- The `port_added` / `port_lost` listener wiring in index.js (lines 85-97) is not modelled, nor are `test_config_path` and `test_update_path`. Those are event registration and file checks. `Decide` returns the workflow it would start.
- `start_server` opens the Modbus connection (client id 1, 250 ms timeout) and announces the mode. This is foreign I/O, and the baud rate 38400 and the 250 ms delay between addresses are timing; none of it is modelled.

=== FILE: a2l_modbus.dfy ===
/**
 The A2L leak-sensor scanner of src/a2l_modbus.js. One pass walks a fixed
 table of Modbus addresses in order. At each address it reads the six
 serial-number registers; in scan mode it then reads the fourteen-word
 telemetry block, in assign mode it writes the configured address into the
 sensor's address register. Any failed transfer abandons that address and
 the walk moves on; with the run-once option the process ends at the first
 address where every transfer succeeded.
 The Modbus client is an oracle: `Bus` says which transfers succeed and
 what the reads return.
 */
module A2lModbus {
  import opened Wrappers

  /** A 16-bit holding register. */
  type Word = w: int | 0 <= w < 0x1_0000

  const SnLen: nat := 6

  const ClientAdrReg: nat := 0
  const LflReg: nat := 10
  const TempReg: nat := 13
  const RhReg: nat := 14
  const MitigationReg: nat := 18
  const LeakReg: nat := 19
  const StatusReg: nat := 20
  const FaultReg: nat := 21
  const SensorLifeReg: nat := 22
  const GasTypeReg: nat := 23
  const SnReg: nat := 50

  /** The telemetry block starts at the LFL register and is this many words long. */
  const TelemetryLen: nat := 14

  /** Refrigerant codes the sensor reports, with their names. */
  const GasTypes: map<int, string> :=
    map[4146 := "R32", 5204 := "R454B", 5212 := "R454C", 5210 := "R454A", 5205 := "R455A"]

  /** The addresses a pass visits, in visiting order. */
  const Addresses: seq<int> := [0x55, 0x40, 0x41, 0x42, 0x43, 0x44, 0x45]

  /** Names of the sensor status codes 0 to 4. */
  const StatusNames: seq<string> := ["Unknown", "Startup", "Normal", "Reserved", "Fault"]

  /** The telemetry registers the report reads. */
  const TelemetryRegs: seq<nat> :=
    [LflReg, TempReg, RhReg, MitigationReg, LeakReg, StatusReg, FaultReg, SensorLifeReg, GasTypeReg]

  /** `String.fromCharCode(word & 0xFF)`. */
  function LowByte(w: Word): char
  {
    (w % 256) as char
  }

  /** `String.fromCharCode((word >> 8) & 0xFF)`. */
  function HighByte(w: Word): char
  {
    (w / 256 % 256) as char
  }

  /** The serial number text: each word gives its low byte, then its high byte. */
  function SerialNumber(words: seq<Word>): (sn: string)
    ensures |sn| == 2 * |words|
    ensures forall i :: 0 <= i < |words| ==> sn[2 * i] as int == words[i] % 256
    ensures forall i :: 0 <= i < |words| ==> sn[2 * i + 1] as int == words[i] / 256
  {
    if |words| == 0 then []
    else
      var tail := words[1..];
      var rest := SerialNumber(tail);
      var sn := [LowByte(words[0]), HighByte(words[0])] + rest;
      assert forall i :: 1 <= i < |words| ==> words[i] == tail[i - 1];
      assert forall i :: 1 <= i < |words| ==> sn[2 * i] == rest[2 * (i - 1)];
      assert forall i :: 1 <= i < |words| ==> sn[2 * i + 1] == rest[2 * (i - 1) + 1];
      sn
  }

  /** Characters that fit in one byte. */
  predicate Latin1(s: string)
  {
    forall i :: 0 <= i < |s| ==> s[i] as int < 256
  }

  /** How a sensor stores a serial number: two characters per word, the first in the low byte. */
  function Pack(sn: string): (words: seq<Word>)
    requires |sn| % 2 == 0 && Latin1(sn)
    ensures |words| == |sn| / 2
  {
    if |sn| == 0 then []
    else [sn[0] as int + 256 * (sn[1] as int)] + Pack(sn[2..])
  }

  /** Decoding a stored serial number gives back the text. */
  lemma {:induction false} SerialNumberOfPack(sn: string)
    requires |sn| % 2 == 0 && Latin1(sn)
    ensures SerialNumber(Pack(sn)) == sn
    decreases |sn|
  {
    if |sn| > 0 {
      SerialNumberOfPack(sn[2..]);
      var w := Pack(sn)[0];
      assert w == sn[0] as int + 256 * (sn[1] as int);
      assert Pack(sn)[1..] == Pack(sn[2..]);
      assert sn == [sn[0], sn[1]] + sn[2..];
    }
  }

  /** A word is its low byte plus 256 times its high byte. */
  lemma WordBytes(w: Word)
    ensures (w % 256) + 256 * (w / 256 % 256) == w
  {
  }

  /** Decoded serial numbers consist of byte-sized characters. */
  lemma {:induction false} SerialNumberLatin1(words: seq<Word>)
    ensures Latin1(SerialNumber(words))
    decreases |words|
  {
    if |words| > 0 {
      SerialNumberLatin1(words[1..]);
      var rest := SerialNumber(words[1..]);
      var sn := SerialNumber(words);
      assert sn == [LowByte(words[0]), HighByte(words[0])] + rest;
      forall i | 0 <= i < |sn|
        ensures sn[i] as int < 256
      {
        if i >= 2 {
          assert sn[i] == rest[i - 2];
        }
      }
    }
  }

  /** Packing a decoded serial number gives back the words. */
  lemma {:induction false} PackOfSerialNumber(words: seq<Word>)
    ensures Latin1(SerialNumber(words))
    ensures Pack(SerialNumber(words)) == words
    decreases |words|
  {
    SerialNumberLatin1(words);
    if |words| > 0 {
      PackOfSerialNumber(words[1..]);
      var w := words[0];
      var rest := SerialNumber(words[1..]);
      var sn := SerialNumber(words);
      assert sn == [LowByte(w), HighByte(w)] + rest;
      assert sn[2..] == rest;
      WordBytes(w);
      assert Pack(sn)[0] == w;
      assert Pack(sn) == [w] + Pack(rest);
      assert words == [w] + words[1..];
    }
  }

  /** Six serial-number registers give a twelve-character serial number. */
  lemma SerialNumberLength(words: seq<Word>)
    requires |words| == SnLen
    ensures |SerialNumber(words)| == 12
  {
  }

  /** `data[reg - off]` on the telemetry block; `None` is JavaScript's `undefined` past the end. */
  function Field(block: seq<Word>, reg: nat): (r: Option<Word>)
    ensures r.Some? <==> LflReg <= reg < LflReg + |block|
    ensures r.Some? ==> r.value == block[reg - LflReg]
  {
    if LflReg <= reg < LflReg + |block| then Some(block[reg - LflReg]) else None
  }

  /** `a2l_gas_types[code]`: a sparse array, `undefined` outside the five known codes. */
  function GasName(code: Option<Word>): (r: Option<string>)
    ensures r.Some? <==> code.Some? && code.value in {4146, 5204, 5205, 5210, 5212}
    ensures r.Some? ==> r.value == GasTypes[code.value]
  {
    if code.Some? && code.value in GasTypes then Some(GasTypes[code.value]) else None
  }

  /** `a2l_status[code]`: `undefined` past the five names. */
  function StatusName(code: Option<Word>): (r: Option<string>)
    ensures r.Some? <==> code.Some? && code.value <= 4
    ensures r.Some? ==> r.value in StatusNames
    ensures r.Some? ==> r.value == StatusNames[code.value]
  {
    if code.Some? && code.value < |StatusNames| then Some(StatusNames[code.value]) else None
  }

  /** The fields `print_sensor_data` shows, before any scaling. */
  datatype Telemetry = Telemetry(
    lfl: Option<Word>,
    gas: Option<string>,
    status: Option<string>,
    leak: Option<Word>,
    age: Option<Word>,
    fault: Option<Word>,
    temperature: Option<Word>,
    humidity: Option<Word>,
    mitigation: Option<Word>)

  /** `print_sensor_data`: each register's word is found at its distance from the LFL register. */
  function Decode(block: seq<Word>): (t: Telemetry)
    ensures |block| == TelemetryLen ==>
              && t.lfl == Some(block[0])
              && t.temperature == Some(block[3])
              && t.humidity == Some(block[4])
              && t.mitigation == Some(block[8])
              && t.leak == Some(block[9])
              && t.fault == Some(block[11])
              && t.age == Some(block[12])
              && (t.status.Some? <==> block[10] <= 4)
              && (t.gas.Some? <==> block[13] in GasTypes)
              && t.status == StatusName(Some(block[10]))
              && t.gas == GasName(Some(block[13]))
  {
    Telemetry(
      Field(block, LflReg),
      GasName(Field(block, GasTypeReg)),
      StatusName(Field(block, StatusReg)),
      Field(block, LeakReg),
      Field(block, SensorLifeReg),
      Field(block, FaultReg),
      Field(block, TempReg),
      Field(block, RhReg),
      Field(block, MitigationReg))
  }

  /** The names the report prints for each known gas code and each status code. */
  lemma NamesOfCodes()
    ensures GasName(Some(4146)) == Some("R32") && GasName(Some(5204)) == Some("R454B")
    ensures GasName(Some(5212)) == Some("R454C") && GasName(Some(5210)) == Some("R454A")
    ensures GasName(Some(5205)) == Some("R455A") && GasName(Some(0)) == None
    ensures StatusName(Some(0)) == Some("Unknown") && StatusName(Some(1)) == Some("Startup")
    ensures StatusName(Some(2)) == Some("Normal") && StatusName(Some(3)) == Some("Reserved")
    ensures StatusName(Some(4)) == Some("Fault") && StatusName(Some(5)) == None
  {
  }

  /** Every register the report uses lies inside the block read from the LFL register. */
  lemma RegistersInBlock()
    ensures forall k :: 0 <= k < |TelemetryRegs| ==> LflReg <= TelemetryRegs[k] < LflReg + TelemetryLen
  {
  }

  /** A full telemetry block yields every raw field. */
  lemma FullBlockDecodes(block: seq<Word>)
    requires |block| == TelemetryLen
    ensures forall k :: 0 <= k < |TelemetryRegs| ==> Field(block, TelemetryRegs[k]).Some?
  {
    RegistersInBlock();
  }

  /** The gas table knows exactly five codes. */
  lemma GasTableSize()
    ensures GasTypes.Keys == {4146, 5204, 5205, 5210, 5212}
    ensures |GasTypes.Keys| == 5
  {
  }

  /** No two table entries are the same address, so a pass visits each at most once. */
  lemma AddressesDistinct()
    ensures forall i, j :: 0 <= i < j < |Addresses| ==> Addresses[i] != Addresses[j]
  {
  }

  /** The Modbus client: `read(adr, start, count)` and `write(adr, reg, value)`; `None`/`false` is a rejected promise. */
  datatype Bus = Bus(read: (int, nat, nat) -> Option<seq<Word>>, write: (int, nat, int) -> bool)

  /** A transfer the pass asks the client for. */
  datatype Op = Read(adr: int, start: nat, count: nat) | Write(adr: int, reg: nat, value: int)

  /** How the visit to one address ended. */
  datatype Outcome =
    | Skipped
    | NoReply
    | Found(serial: string, telemetry: Telemetry)
    | TelemetryLost(serial: string)
    | Reassigned(serial: string)
    | WriteFailed(serial: string)
  {
    /** Every transfer of the visit succeeded, which is when the run-once option ends the process. */
    predicate Completed()
    {
      Found? || Reassigned?
    }
  }

  /** The visit to one address: where, how it ended, and the transfers it asked for. */
  datatype Visit = Visit(adr: int, outcome: Outcome, ops: seq<Op>)

  /** The scanner's settings: scan only, the address to assign, and the run-once option. */
  datatype Config = Config(scanOnly: bool, configAdr: int, exitOnPass: bool)

  /** What one pass did: the visits in order, and whether the process exited. */
  datatype Pass = Pass(visits: seq<Visit>, exited: bool)

  /** Assign mode leaves alone the address it is about to give away. */
  predicate Skips(cfg: Config, adr: int)
  {
    !cfg.scanOnly && adr == cfg.configAdr
  }

  /** The body of the `for` loop of `scan_for_sensors` for one address. */
  function Probe(bus: Bus, cfg: Config, adr: int): (v: Visit)
    ensures v.adr == adr
    ensures v.outcome == Skipped <==> Skips(cfg, adr)
  {
    if Skips(cfg, adr) then Visit(adr, Skipped, [])
    else
      var snRead := Read(adr, SnReg, SnLen);
      match bus.read(adr, SnReg, SnLen)
      case None => Visit(adr, NoReply, [snRead])
      case Some(words) =>
        var serial := SerialNumber(words);
        if cfg.scanOnly then
          var ops := [snRead, Read(adr, LflReg, TelemetryLen)];
          match bus.read(adr, LflReg, TelemetryLen)
          case None => Visit(adr, TelemetryLost(serial), ops)
          case Some(block) => Visit(adr, Found(serial, Decode(block)), ops)
        else
          var ops := [snRead, Write(adr, ClientAdrReg, cfg.configAdr)];
          if bus.write(adr, ClientAdrReg, cfg.configAdr) then Visit(adr, Reassigned(serial), ops)
          else Visit(adr, WriteFailed(serial), ops)
  }

  /**
   What one visit asks of the client: nothing when skipped; otherwise the
   serial-number read first, then the telemetry read in scan mode or the
   address write in assign mode, each only if the serial-number read
   succeeded. The write puts the configured address, never the visited one,
   into the address register.
   */
  lemma ProbeTransfers(bus: Bus, cfg: Config, adr: int)
    ensures var v := Probe(bus, cfg, adr);
            && (v.outcome == Skipped ==> v.ops == [])
            && (v.outcome != Skipped ==> |v.ops| >= 1 && v.ops[0] == Read(adr, SnReg, SnLen))
            && (v.outcome == NoReply <==> !Skips(cfg, adr) && bus.read(adr, SnReg, SnLen).None?)
            && (v.outcome.Found? || v.outcome.TelemetryLost? ==>
                  cfg.scanOnly && v.ops == [Read(adr, SnReg, SnLen), Read(adr, LflReg, TelemetryLen)])
            && (v.outcome.Reassigned? || v.outcome.WriteFailed? ==>
                  !cfg.scanOnly && v.ops == [Read(adr, SnReg, SnLen), Write(adr, ClientAdrReg, cfg.configAdr)])
            && (!v.outcome.Skipped? && !v.outcome.NoReply? ==>
                  v.outcome.serial == SerialNumber(bus.read(adr, SnReg, SnLen).value))
            && (v.outcome.Found? <==>
                  cfg.scanOnly && bus.read(adr, SnReg, SnLen).Some? && bus.read(adr, LflReg, TelemetryLen).Some?)
            && (v.outcome.Reassigned? <==>
                  !Skips(cfg, adr) && !cfg.scanOnly && bus.read(adr, SnReg, SnLen).Some? && bus.write(adr, ClientAdrReg, cfg.configAdr))
  {
  }

  /** Whether this visit ends the process. */
  predicate Exits(cfg: Config, v: Visit)
  {
    cfg.exitOnPass && v.outcome.Completed()
  }

  /** The walk over the addresses of `table`, in order, up to the first visit that ends the process. */
  function ScanFrom(bus: Bus, cfg: Config, table: seq<int>): (p: Pass)
    ensures |p.visits| <= |table|
    ensures forall k :: 0 <= k < |p.visits| ==> p.visits[k] == Probe(bus, cfg, table[k])
    ensures !p.exited ==> |p.visits| == |table|
    decreases |table|
  {
    if |table| == 0 then Pass([], false)
    else
      var v := Probe(bus, cfg, table[0]);
      if Exits(cfg, v) then Pass([v], true)
      else
        var rest := ScanFrom(bus, cfg, table[1..]);
        var p := Pass([v] + rest.visits, rest.exited);
        assert forall k :: 1 <= k < |p.visits| ==> p.visits[k] == rest.visits[k - 1] && table[k] == table[1..][k - 1];
        p
  }

  /** The walk stops right after the first visit that ends the process, and only there. */
  lemma {:induction false} ScanFromExits(bus: Bus, cfg: Config, table: seq<int>)
    ensures var p := ScanFrom(bus, cfg, table);
            p.exited ==> |p.visits| >= 1 && Exits(cfg, p.visits[|p.visits| - 1])
    ensures var p := ScanFrom(bus, cfg, table);
            forall k :: 0 <= k < |p.visits| - 1 ==> !Exits(cfg, p.visits[k])
    ensures var p := ScanFrom(bus, cfg, table);
            !p.exited ==> forall k :: 0 <= k < |p.visits| ==> !Exits(cfg, p.visits[k])
    decreases |table|
  {
    if |table| > 0 && !Exits(cfg, Probe(bus, cfg, table[0])) {
      ScanFromExits(bus, cfg, table[1..]);
      var rest := ScanFrom(bus, cfg, table[1..]);
      var p := ScanFrom(bus, cfg, table);
      assert p.visits == [Probe(bus, cfg, table[0])] + rest.visits;
      assert forall k :: 1 <= k < |p.visits| ==> p.visits[k] == rest.visits[k - 1];
    }
  }

  /**
   `scan_for_sensors`: a pass over the whole table, entry by entry. A failed
   transfer never stops the walk; only a completed visit under the run-once
   option does, and it is then the last visit.
   */
  function Scan(bus: Bus, cfg: Config): (p: Pass)
    ensures |p.visits| <= |Addresses|
    ensures forall k :: 0 <= k < |p.visits| ==> p.visits[k] == Probe(bus, cfg, Addresses[k])
    ensures !p.exited ==> |p.visits| == |Addresses|
    ensures p.exited ==> |p.visits| >= 1 && Exits(cfg, p.visits[|p.visits| - 1])
    ensures forall k :: 0 <= k < |p.visits| - 1 ==> !Exits(cfg, p.visits[k])
    ensures !p.exited ==> forall k :: 0 <= k < |p.visits| ==> !Exits(cfg, p.visits[k])
  {
    ScanFromExits(bus, cfg, Addresses);
    ScanFrom(bus, cfg, Addresses)
  }

  /** A pass visits the table entries in table order, each at most once. */
  lemma VisitOrder(bus: Bus, cfg: Config)
    ensures var p := Scan(bus, cfg);
            forall k :: 0 <= k < |p.visits| ==> p.visits[k].adr == Addresses[k]
    ensures var p := Scan(bus, cfg);
            forall i, j :: 0 <= i < j < |p.visits| ==> p.visits[i].adr != p.visits[j].adr
  {
    AddressesDistinct();
  }

  /** An entry is skipped exactly when assign mode is about to give its address away. */
  lemma SkipRule(bus: Bus, cfg: Config)
    ensures var p := Scan(bus, cfg);
            forall k :: 0 <= k < |p.visits| ==> (p.visits[k].outcome == Skipped <==> Skips(cfg, Addresses[k]))
  {
  }

  /** The process exits exactly when some visit completed under the run-once option. */
  lemma ExitRule(bus: Bus, cfg: Config)
    ensures var p := Scan(bus, cfg);
            p.exited <==> exists k :: 0 <= k < |p.visits| && Exits(cfg, p.visits[k])
  {
    var p := Scan(bus, cfg);
    if p.exited {
      assert Exits(cfg, p.visits[|p.visits| - 1]);
    }
  }

  /** Scan mode visits every table entry; it never skips one. */
  lemma ScanModeSkipsNothing(bus: Bus, cfg: Config)
    requires cfg.scanOnly
    ensures forall k :: 0 <= k < |Scan(bus, cfg).visits| ==> Scan(bus, cfg).visits[k].outcome != Skipped
  {
  }

  /** In a table without repeats, the visits skipped for being `target` are exactly the one at its position. */
  lemma OnlyTargetSkipped(table: seq<int>, visits: seq<Visit>, target: int, j: int)
    requires |visits| == |table|
    requires forall a, b :: 0 <= a < b < |table| ==> table[a] != table[b]
    requires 0 <= j < |table| && table[j] == target
    requires forall k :: 0 <= k < |visits| ==> (visits[k].outcome == Skipped <==> table[k] == target)
    ensures (set k | 0 <= k < |table| && visits[k].outcome == Skipped) == {j}
  {
    var skipped := set k | 0 <= k < |table| && visits[k].outcome == Skipped;
    forall k | k in skipped
      ensures k == j
    {
      assert table[k] == table[j];
    }
    assert j in skipped;
  }

  /** In assign mode to a table address without the run-once option, a pass skips exactly that one entry. */
  lemma AssignSkipsExactlyOne(bus: Bus, cfg: Config)
    requires !cfg.scanOnly && cfg.configAdr in Addresses && !cfg.exitOnPass
    ensures |set k | 0 <= k < |Addresses| && Scan(bus, cfg).visits[k].outcome == Skipped| == 1
  {
    var p := Scan(bus, cfg);
    var j :| 0 <= j < |Addresses| && Addresses[j] == cfg.configAdr;
    assert !p.exited;
    assert |p.visits| == |Addresses|;
    SkipRule(bus, cfg);
    assert forall k :: 0 <= k < |p.visits| ==> (p.visits[k].outcome == Skipped <==> Addresses[k] == cfg.configAdr);
    AddressesDistinct();
    OnlyTargetSkipped(Addresses, p.visits, cfg.configAdr, j);
    assert (set k | 0 <= k < |Addresses| && p.visits[k].outcome == Skipped) == {j};
  }

  /** All the transfers of a pass, in the order they were asked for. */
  function Ops(visits: seq<Visit>): seq<Op>
  {
    if |visits| == 0 then [] else visits[0].ops + Ops(visits[1..])
  }

  /**
   Transfer `k` of `ops` is an address write only in assign mode, only of
   the configured address into the address register, and only right after
   a serial-number read at the same address that succeeded.
   */
  predicate WriteJustified(bus: Bus, cfg: Config, ops: seq<Op>, k: int)
    requires 0 <= k < |ops|
  {
    ops[k].Write? ==>
      && !cfg.scanOnly
      && ops[k] == Write(ops[k].adr, ClientAdrReg, cfg.configAdr)
      && k >= 1
      && ops[k - 1] == Read(ops[k].adr, SnReg, SnLen)
      && bus.read(ops[k].adr, SnReg, SnLen).Some?
  }

  /**
   Transfer `k` of `ops` is a telemetry read only in scan mode, and only
   right after a serial-number read at the same address that succeeded.
   */
  predicate TelemetryJustified(bus: Bus, cfg: Config, ops: seq<Op>, k: int)
    requires 0 <= k < |ops|
  {
    ops[k] == Read(ops[k].adr, LflReg, TelemetryLen) ==>
      && cfg.scanOnly
      && k >= 1
      && ops[k - 1] == Read(ops[k].adr, SnReg, SnLen)
      && bus.read(ops[k].adr, SnReg, SnLen).Some?
  }

  /** Both rules hold at every position of `ops`. */
  predicate Justified(bus: Bus, cfg: Config, ops: seq<Op>)
  {
    forall k :: 0 <= k < |ops| ==> WriteJustified(bus, cfg, ops, k) && TelemetryJustified(bus, cfg, ops, k)
  }

  /** The transfers of one visit obey both rules. */
  lemma ProbeJustified(bus: Bus, cfg: Config, adr: int)
    ensures Justified(bus, cfg, Probe(bus, cfg, adr).ops)
  {
    ProbeTransfers(bus, cfg, adr);
  }

  /** Two justified logs stay justified one after the other when the second does not open with a write or a telemetry read. */
  lemma JustifiedAppend(bus: Bus, cfg: Config, a: seq<Op>, b: seq<Op>)
    requires Justified(bus, cfg, a) && Justified(bus, cfg, b)
    requires |b| > 0 ==> b[0] == Read(b[0].adr, SnReg, SnLen)
    ensures Justified(bus, cfg, a + b)
  {
    var ab := a + b;
    forall k | 0 <= k < |ab|
      ensures WriteJustified(bus, cfg, ab, k) && TelemetryJustified(bus, cfg, ab, k)
    {
      if k >= |a| {
        assert ab[k] == b[k - |a|];
        assert WriteJustified(bus, cfg, b, k - |a|) && TelemetryJustified(bus, cfg, b, k - |a|);
        if k > |a| {
          assert ab[k - 1] == b[k - 1 - |a|];
        }
      } else {
        assert ab[k] == a[k];
        assert WriteJustified(bus, cfg, a, k) && TelemetryJustified(bus, cfg, a, k);
        if k >= 1 {
          assert ab[k - 1] == a[k - 1];
        }
      }
    }
  }

  /** Every visit's transfers obey both rules, so the whole log of the visits does. */
  lemma {:induction false} OpsJustified(bus: Bus, cfg: Config, visits: seq<Visit>)
    requires forall k :: 0 <= k < |visits| ==> visits[k] == Probe(bus, cfg, visits[k].adr)
    ensures Justified(bus, cfg, Ops(visits))
    decreases |visits|
  {
    if |visits| > 0 {
      OpsJustified(bus, cfg, visits[1..]);
      ProbeJustified(bus, cfg, visits[0].adr);
      var rest := Ops(visits[1..]);
      if |visits| > 1 {
        assert visits[1..][0] == visits[1];
        assert |rest| > 0 ==> rest[0] == Read(rest[0].adr, SnReg, SnLen) by {
          OpsHead(bus, cfg, visits[1..]);
        }
      }
      JustifiedAppend(bus, cfg, visits[0].ops, rest);
    }
  }

  /** A log of visits that is not empty opens with a serial-number read. */
  lemma {:induction false} OpsHead(bus: Bus, cfg: Config, visits: seq<Visit>)
    requires forall k :: 0 <= k < |visits| ==> visits[k] == Probe(bus, cfg, visits[k].adr)
    ensures |Ops(visits)| > 0 ==> Ops(visits)[0] == Read(Ops(visits)[0].adr, SnReg, SnLen)
    decreases |visits|
  {
    if |visits| > 0 && |visits[0].ops| == 0 {
      OpsHead(bus, cfg, visits[1..]);
      assert Ops(visits) == Ops(visits[1..]);
    }
  }

  /**
   Over a whole pass: the address register is written only in assign mode,
   only with the configured address, and only right after that address's
   serial number was read; telemetry is read only in scan mode, also right
   after a successful serial-number read.
   */
  lemma PassJustified(bus: Bus, cfg: Config)
    ensures Justified(bus, cfg, Ops(Scan(bus, cfg).visits))
  {
    OpsJustified(bus, cfg, Scan(bus, cfg).visits);
  }

  /** A blank sensor on the factory address 0x55 is the first one visited, and is given the configured address. */
  lemma FreshSensorReassigned(bus: Bus, adr: int, serialWords: seq<Word>)
    requires adr in Addresses && adr != 0x55
    requires bus.read(0x55, SnReg, SnLen) == Some(serialWords)
    requires bus.write(0x55, ClientAdrReg, adr)
    ensures var p := Scan(bus, Config(false, adr, true));
            && p.exited
            && p.visits == [Visit(0x55, Reassigned(SerialNumber(serialWords)), [Read(0x55, SnReg, SnLen), Write(0x55, ClientAdrReg, adr)])]
  {
  }
}

=== FILE: args.dfy ===
/**
 `process_args` of src/args.js. For every key of the required and of the
 optional table, the first occurrence of `-key` in the command line picks
 the token after it as the key's new value; the type of the key's current
 value decides whether that token goes through `parseInt`. A missing
 required flag ends the process unless required flags are being ignored.
 `parseInt` is a parameter: `None` is its NaN.
 */
module Args {
  import opened Wrappers

  /** The JavaScript values the argument tables hold. */
  datatype JsValue = Number(n: int) | NaN | Text(s: string) | Undefined
  {
    /** `typeof v == 'number'`. */
    predicate IsNumber()
    {
      Number? || NaN?
    }
  }

  /** The integer parser the tool calls; `None` stands for NaN. */
  type ParseInt = string -> Option<int>

  /** A key→value table such as `{port: 0, name: ''}`. */
  type Table = map<string, JsValue>

  /** What `process_args` ends in: `process.exit(status)`, or its return value and the two tables as it left them. */
  datatype ArgsOutcome = Exit(status: int) | Parsed(complete: bool, required: Table, optional: Table)

  /** The flag that names `key` on the command line. */
  function Flag(key: string): string
  {
    "-" + key
  }

  /** `argv.indexOf('-' + key)`, with `None` for -1. */
  function FlagIndex(argv: seq<string>, key: string): (r: Option<nat>)
    ensures r.Some? ==> r.value < |argv| && argv[r.value] == Flag(key)
    ensures r.Some? ==> forall j :: 0 <= j < r.value ==> argv[j] != Flag(key)
    ensures r.None? <==> Flag(key) !in argv
  {
    FlagIndexFrom(argv, key, 0)
  }

  /** The first index at or after `from` holding the flag. */
  function FlagIndexFrom(argv: seq<string>, key: string, from: nat): (r: Option<nat>)
    ensures r.Some? ==> from <= r.value < |argv| && argv[r.value] == Flag(key)
    ensures r.Some? ==> forall j :: from <= j < r.value ==> argv[j] != Flag(key)
    ensures r.None? <==> forall j :: from <= j < |argv| ==> argv[j] != Flag(key)
    decreases |argv| - from
  {
    if from >= |argv| then None
    else if argv[from] == Flag(key) then Some(from)
    else FlagIndexFrom(argv, key, from + 1)
  }

  /** `argv[i + 1]`: `undefined` past the end. */
  function TokenAfter(argv: seq<string>, i: nat): (r: Option<string>)
    ensures r.Some? <==> i + 1 < |argv|
    ensures r.Some? ==> r.value == argv[i + 1]
  {
    if i + 1 < |argv| then Some(argv[i + 1]) else None
  }

  /**
   The `switch (typeof …)` of `process_args`: a number-typed key gets
   `parseInt(val)`, any other key gets `val` itself.
   */
  function Coerce(current: JsValue, token: Option<string>, parseInt: ParseInt): (v: JsValue)
    ensures v.IsNumber() <==> current.IsNumber()
    ensures !current.IsNumber() ==> (v == Undefined <==> token.None?)
    ensures !current.IsNumber() && token.Some? ==> v == Text(token.value)
    ensures current.IsNumber() && token.Some? && parseInt(token.value).Some? ==> v == Number(parseInt(token.value).value)
    ensures current.IsNumber() && (token.None? || parseInt(token.value).None?) ==> v == NaN
  {
    if current.IsNumber() then
      if token.Some? && parseInt(token.value).Some? then Number(parseInt(token.value).value) else NaN
    else if token.Some? then Text(token.value)
    else Undefined
  }

  /** Position `i` holds the first occurrence of the key's flag. */
  predicate FirstAt(argv: seq<string>, key: string, i: int)
  {
    0 <= i < |argv| && argv[i] == Flag(key) && forall j :: 0 <= j < i ==> argv[j] != Flag(key)
  }

  /**
   The new value of one key: it keeps its default when its flag is absent;
   otherwise it is the token after the flag's first occurrence, coerced to
   the default's type.
   */
  function Lookup(argv: seq<string>, key: string, current: JsValue, parseInt: ParseInt): (v: JsValue)
    ensures Flag(key) !in argv ==> v == current
    ensures v.IsNumber() <==> current.IsNumber()
    ensures forall i :: FirstAt(argv, key, i) && !current.IsNumber() ==>
              v == if i + 1 < |argv| then Text(argv[i + 1]) else Undefined
  {
    match FlagIndex(argv, key)
    case None => current
    case Some(i) =>
      var v := Coerce(current, TokenAfter(argv, i), parseInt);
      assert forall k :: FirstAt(argv, key, k) ==> k == i;
      v
  }

  /** One `for (var arg in …)` loop: every key of the table is looked up, and no key is added. */
  function Assign(table: Table, argv: seq<string>, parseInt: ParseInt): (r: Table)
    ensures r.Keys == table.Keys
  {
    map k | k in table :: Lookup(argv, k, table[k], parseInt)
  }

  /** Every key of the table has its flag on the command line. */
  predicate AllPresent(table: Table, argv: seq<string>)
  {
    forall k :: k in table ==> Flag(k) in argv
  }

  /** `process_args(argList, optArgList, ignoreRequired)` over the command line `argv`. */
  function ProcessArgs(required: Table, optional: Table, ignoreRequired: bool, argv: seq<string>, parseInt: ParseInt): (r: ArgsOutcome)
    ensures r.Exit? ==> r.status == 1
    ensures r.Parsed? ==> r.required.Keys == required.Keys && r.optional.Keys == optional.Keys
  {
    var all := forall k :: k in required ==> FlagIndex(argv, k).Some?;
    if !all && !ignoreRequired then Exit(1)
    else Parsed(all, Assign(required, argv, parseInt), Assign(optional, argv, parseInt))
  }

  /**
   The process exits exactly when a required flag is missing and required
   flags are not ignored; otherwise the return value says whether every
   required flag was there.
   */
  lemma ExitIff(required: Table, optional: Table, ignoreRequired: bool, argv: seq<string>, parseInt: ParseInt)
    ensures var r := ProcessArgs(required, optional, ignoreRequired, argv, parseInt);
            && (r.Exit? <==> !AllPresent(required, argv) && !ignoreRequired)
            && (r.Parsed? ==> (r.complete <==> AllPresent(required, argv)))
  {
  }

  /**
   A key whose flag occurs takes the token right after the flag's FIRST
   occurrence, coerced by the key's type; a key whose flag is absent keeps
   its value.
   */
  lemma ValueOfKey(table: Table, argv: seq<string>, parseInt: ParseInt, key: string)
    requires key in table
    ensures Flag(key) !in argv ==> Assign(table, argv, parseInt)[key] == table[key]
    ensures forall i :: 0 <= i < |argv| && argv[i] == Flag(key) && Flag(key) !in argv[..i] ==>
              Assign(table, argv, parseInt)[key] == Coerce(table[key], TokenAfter(argv, i), parseInt)
  {
  }

  /** Keys keep their JavaScript type: number-typed keys stay number-typed and the others never become numbers. */
  lemma TypesKept(table: Table, argv: seq<string>, parseInt: ParseInt)
    ensures forall k :: k in table ==> (Assign(table, argv, parseInt)[k].IsNumber() <==> table[k].IsNumber())
  {
  }

  /** A flag given as the last token leaves a string-typed key `undefined`. */
  lemma TrailingFlag(table: Table, argv: seq<string>, parseInt: ParseInt, key: string)
    requires key in table && table[key].Text?
    requires |argv| >= 1 && argv[|argv| - 1] == Flag(key)
    requires Flag(key) !in argv[..|argv| - 1]
    ensures Assign(table, argv, parseInt)[key] == Undefined
  {
    ValueOfKey(table, argv, parseInt, key);
  }
}

=== FILE: classifiers.dfy ===
/**
 The response classifiers of src/c550_lib.js. Each one receives all text
 received so far in a transaction, cuts it into lines at carriage returns
 and looks for marker substrings, answering Pending, Ok or Failed; the
 identity query also extracts the controller's SSID.
 */
module Classifiers {
  import opened Wrappers
  import opened Text

  /** The `stat` codes of the transaction layer. */
  datatype Status = Ok | Failed | TimedOut | Pending

  /** What a classifier returns: a code and, for the identity query, the SSID it found. */
  datatype Verdict = Verdict(code: Status, ssid: Option<string>)

  const OtaLenAck: string := ">update,len,ACK"
  const OtaDataAck: string := ">update,data,"
  const OtaFail: string := ">update,FAIL"
  const SsidMarker: string := "SSID: C550"
  const SsidField: string := "SSID: "
  const ConfigAck: string := ">json-cfg,OK"
  const ConfigFail: string := ">json-cfg,FAIL"

  /** The lines already terminated by a carriage return: every piece but the last one. */
  function CompletedLines(data: string): (lines: seq<string>)
    ensures forall i :: 0 <= i < |lines| ==> CR !in lines[i]
  {
    Init(Split(data, CR))
  }

  /** A line that carries either marker. */
  predicate Marked(line: string, ack: string, fail: string)
  {
    Contains(line, ack) || Contains(line, fail)
  }

  /** Line `i` is the first line carrying a marker. */
  predicate FirstMarked(lines: seq<string>, i: int, ack: string, fail: string)
  {
    && 0 <= i < |lines|
    && Marked(lines[i], ack, fail)
    && forall j :: 0 <= j < i ==> !Marked(lines[j], ack, fail)
  }

  /**
   The rule every acknowledgement classifier follows: no marked line means
   Pending; otherwise the first marked line decides, and a line carrying
   both markers counts as the acknowledgement.
   */
  predicate DecidedBy(lines: seq<string>, ack: string, fail: string, r: Status)
  {
    && r != TimedOut
    && (r == Pending <==> forall i :: 0 <= i < |lines| ==> !Marked(lines[i], ack, fail))
    && (r != Pending ==> exists i :: 0 <= i < |lines| && FirstMarked(lines, i, ack, fail) && (r == Ok <==> Contains(lines[i], ack)))
  }

  /** The loop shared by the acknowledgement classifiers: first line with a marker wins, the acknowledgement is looked for first. */
  function FirstVerdict(lines: seq<string>, ack: string, fail: string): (r: Status)
    ensures r == Ok || r == Failed || r == Pending
    ensures r == Ok ==> exists i :: 0 <= i < |lines| && Contains(lines[i], ack)
    ensures r == Failed ==> exists i :: 0 <= i < |lines| && Contains(lines[i], fail)
  {
    if |lines| == 0 then Pending
    else if Contains(lines[0], ack) then Ok
    else if Contains(lines[0], fail) then Failed
    else FirstVerdict(lines[1..], ack, fail)
  }

  /** The loop follows the first-marked-line rule. */
  lemma {:induction false} FirstVerdictSpec(lines: seq<string>, ack: string, fail: string)
    ensures DecidedBy(lines, ack, fail, FirstVerdict(lines, ack, fail))
    decreases |lines|
  {
    var r := FirstVerdict(lines, ack, fail);
    if |lines| > 0 {
      if Marked(lines[0], ack, fail) {
        assert FirstMarked(lines, 0, ack, fail);
      } else {
        var tail := lines[1..];
        FirstVerdictSpec(tail, ack, fail);
        assert r == FirstVerdict(tail, ack, fail);
        if r != Pending {
          var k :| 0 <= k < |tail| && FirstMarked(tail, k, ack, fail) && (r == Ok <==> Contains(tail[k], ack));
          FirstMarkedShift(lines, k, ack, fail);
          assert FirstMarked(lines, k + 1, ack, fail) && (r == Ok <==> Contains(lines[k + 1], ack));
        } else {
          forall i | 0 <= i < |lines|
            ensures !Marked(lines[i], ack, fail)
          {
            if i > 0 { assert lines[i] == tail[i - 1]; }
          }
        }
      }
    }
  }

  /** Behind an unmarked first line, the first marked line of the rest is the first marked line of the whole. */
  lemma FirstMarkedShift(lines: seq<string>, k: int, ack: string, fail: string)
    requires |lines| > 0 && !Marked(lines[0], ack, fail)
    requires FirstMarked(lines[1..], k, ack, fail)
    ensures FirstMarked(lines, k + 1, ack, fail) && lines[k + 1] == lines[1..][k]
  {
    forall j | 0 <= j < k + 1
      ensures !Marked(lines[j], ack, fail)
    {
      if j > 0 { assert lines[j] == lines[1..][j - 1]; }
    }
  }

  /** Lines after a decided prefix are never looked at; an undecided prefix hands over to the rest. */
  lemma {:induction false} FirstVerdictAppend(a: seq<string>, b: seq<string>, ack: string, fail: string)
    ensures FirstVerdict(a + b, ack, fail) ==
            if FirstVerdict(a, ack, fail) != Pending then FirstVerdict(a, ack, fail) else FirstVerdict(b, ack, fail)
    decreases |a|
  {
    if |a| == 0 {
      assert a + b == b;
    } else {
      assert (a + b)[0] == a[0];
      assert (a + b)[1..] == a[1..] + b;
      FirstVerdictAppend(a[1..], b, ack, fail);
    }
  }

  /** The acknowledgement classifiers' verdict on the completed lines of `data`. */
  function AckVerdict(data: string, ack: string, fail: string): (r: Status)
    ensures DecidedBy(CompletedLines(data), ack, fail, r)
  {
    FirstVerdictSpec(CompletedLines(data), ack, fail);
    FirstVerdict(CompletedLines(data), ack, fail)
  }

  /** Completed lines are the pieces before the last carriage return; the text after it is never a line. */
  lemma CompletedLinesOnly(done: string, partial: string)
    requires CR !in partial
    ensures CompletedLines(done + [CR] + partial) == Split(done, CR)
    ensures CompletedLines(partial) == []
  {
    SplitAround(done, CR, partial);
    SplitWithout(partial, CR);
  }

  /** All but the last element, the shape of `CompletedLines`. */
  function Init<T>(xs: seq<T>): seq<T>
    requires |xs| >= 1
  {
    xs[..|xs| - 1]
  }

  /** Putting the same element in front keeps one front part a prefix of the other. */
  lemma InitCons<T>(x: T, r: seq<T>, q: seq<T>)
    requires |r| >= 1 && |q| >= 1 && Init(r) <= Init(q)
    ensures Init([x] + r) <= Init([x] + q)
  {
    assert Init([x] + r) == [x] + Init(r);
    assert Init([x] + q) == [x] + Init(q);
  }

  /** Growing the first element of both sides alike keeps one front part a prefix of the other. */
  lemma InitMerge<T>(f: T -> T, r: seq<T>, q: seq<T>)
    requires |r| >= 2 && |q| >= 1 && Init(r) <= Init(q)
    ensures Init([f(r[0])] + r[1..]) <= Init([f(q[0])] + q[1..])
  {
    assert r[0] == Init(r)[0] == Init(q)[0] == q[0];
    assert Init([f(r[0])] + r[1..]) == [f(r[0])] + Init(r)[1..];
    assert Init([f(q[0])] + q[1..]) == [f(q[0])] + Init(q)[1..];
  }

  /** The pieces of text that starts with a separator, and of text that starts with another character. */
  lemma SplitFirst(s: string)
    requires |s| >= 1
    ensures s[0] == CR ==> Split(s, CR) == [""] + Split(s[1..], CR)
    ensures s[0] != CR ==>
              var r := Split(s[1..], CR);
              Split(s, CR) == [[s[0]] + r[0]] + r[1..]
  {
  }

  /** More received text can only add completed lines after the existing ones. */
  lemma {:induction false} CompletedLinesGrow(s: string, t: string)
    ensures CompletedLines(s) <= CompletedLines(s + t)
    decreases |s|
  {
    if |s| == 0 {
      assert CompletedLines(s) == [];
    } else {
      var st := s + t;
      assert st[0] == s[0] && st[1..] == s[1..] + t;
      CompletedLinesGrow(s[1..], t);
      SplitFirst(s);
      SplitFirst(st);
      var r := Split(s[1..], CR);
      var q := Split(s[1..] + t, CR);
      assert Init(r) <= Init(q);
      if s[0] == CR {
        InitCons("", r, q);
      } else if |r| == 1 {
        assert CompletedLines(s) == [];
      } else {
        InitMerge(x => [s[0]] + x, r, q);
      }
    }
  }

  /** Once the acknowledgement classifiers reach Ok or Failed, further text cannot change the verdict. */
  lemma AckVerdictStable(s: string, t: string, ack: string, fail: string)
    requires AckVerdict(s, ack, fail) != Pending
    ensures AckVerdict(s + t, ack, fail) == AckVerdict(s, ack, fail)
  {
    CompletedLinesGrow(s, t);
    var more := CompletedLines(s + t)[|CompletedLines(s)|..];
    assert CompletedLines(s + t) == CompletedLines(s) + more;
    FirstVerdictAppend(CompletedLines(s), more, ack, fail);
  }

  /** `parse_ota_len_cb`: the length announcement was acknowledged or refused. */
  function ParseOtaLen(data: string): (v: Verdict)
    ensures v.ssid.None?
    ensures DecidedBy(CompletedLines(data), OtaLenAck, OtaFail, v.code)
  {
    Verdict(AckVerdict(data, OtaLenAck, OtaFail), None)
  }

  /** `parse_ota_data_cb`: a firmware block was acknowledged or refused. */
  function ParseOtaData(data: string): (v: Verdict)
    ensures v.ssid.None?
    ensures DecidedBy(CompletedLines(data), OtaDataAck, OtaFail, v.code)
  {
    Verdict(AckVerdict(data, OtaDataAck, OtaFail), None)
  }

  /** `parse_config_cb`: like the others, except that it also reads the unterminated last piece. */
  function ParseConfig(data: string): (v: Verdict)
    ensures v.ssid.None?
    ensures DecidedBy(Split(data, CR), ConfigAck, ConfigFail, v.code)
  {
    FirstVerdictSpec(Split(data, CR), ConfigAck, ConfigFail);
    Verdict(FirstVerdict(Split(data, CR), ConfigAck, ConfigFail), None)
  }

  /** The loop of `parse_mac_cb`: the first line holding the SSID marker yields the field after "SSID: ". */
  function MacScan(lines: seq<string>): (v: Verdict)
    ensures v.code == Ok || v.code == Pending
    ensures v.code == Ok <==> v.ssid.Some?
    ensures v.code == Ok <==> exists i :: 0 <= i < |lines| && Contains(lines[i], SsidMarker)
    ensures v.code == Ok ==>
              exists i :: && 0 <= i < |lines| && Contains(lines[i], SsidMarker)
                          && (forall j :: 0 <= j < i ==> !Contains(lines[j], SsidMarker))
                          && v.ssid == SecondField(lines[i], SsidField)
  {
    if |lines| == 0 then Verdict(Pending, None)
    else if Contains(lines[0], SsidMarker) then
      assert SsidMarker == SsidField + "C550";
      ContainsPrefix(lines[0], SsidField, "C550");
      Verdict(Ok, SecondField(lines[0], SsidField))
    else
      var v := MacScan(lines[1..]);
      assert forall i :: 1 <= i < |lines| ==> lines[i] == lines[1..][i - 1];
      if v.code == Ok then
        var k :| 0 <= k < |lines[1..]| && Contains(lines[1..][k], SsidMarker)
                 && (forall j :: 0 <= j < k ==> !Contains(lines[1..][j], SsidMarker))
                 && v.ssid == SecondField(lines[1..][k], SsidField);
        assert forall j :: 0 <= j < k + 1 ==> !Contains(lines[j], SsidMarker);
        v
      else
        v
  }

  /** `parse_mac_cb`: the identity query; never Failed, only Ok with an SSID or Pending. */
  function ParseMac(data: string): (v: Verdict)
    ensures v.code != Failed && v.code != TimedOut
    ensures v.code == Ok <==> v.ssid.Some?
    ensures v.code == Ok <==> exists i :: 0 <= i < |CompletedLines(data)| && Contains(CompletedLines(data)[i], SsidMarker)
  {
    MacScan(CompletedLines(data))
  }

  /** The three line-terminated classifiers never look past the last carriage return. */
  lemma PartialLineIgnored(done: string, partial: string)
    requires CR !in partial
    ensures ParseOtaLen(done + [CR] + partial) == ParseOtaLen(done + [CR])
    ensures ParseOtaData(done + [CR] + partial) == ParseOtaData(done + [CR])
    ensures ParseMac(done + [CR] + partial) == ParseMac(done + [CR])
  {
    CompletedLinesOnly(done, partial);
    CompletedLinesOnly(done, "");
    assert done + [CR] + "" == done + [CR];
  }

  /** Without any carriage return the three line-terminated classifiers stay Pending. */
  lemma NoTerminatorPending(partial: string)
    requires CR !in partial
    ensures ParseOtaLen(partial) == Verdict(Pending, None)
    ensures ParseOtaData(partial) == Verdict(Pending, None)
    ensures ParseMac(partial) == Verdict(Pending, None)
  {
    CompletedLinesOnly("", partial);
  }

  /** The configuration classifier already accepts an acknowledgement that has no carriage return yet. */
  lemma ConfigReadsTrailingPiece(done: string, partial: string)
    requires CR !in partial
    requires ParseConfig(done).code == Pending
    requires Contains(partial, ConfigAck)
    ensures ParseConfig(done + [CR] + partial).code == Ok
  {
    SplitAround(done, CR, partial);
    SplitWithout(partial, CR);
    FirstVerdictAppend(Split(done, CR), [partial], ConfigAck, ConfigFail);
  }

  /** Two terminated lines are exactly the completed lines. */
  lemma TwoCompletedLines(a: string, b: string)
    requires CR !in a && CR !in b
    ensures CompletedLines(a + [CR] + b + [CR]) == [a, b]
  {
    var head := a + [CR] + b;
    assert head + [CR] + "" == a + [CR] + b + [CR];
    CompletedLinesOnly(head, "");
    SplitAround(a, CR, b);
    SplitWithout(a, CR);
    SplitWithout(b, CR);
  }

  /** A completed acknowledgement line is Ok even after a completed line of unrelated text. */
  lemma OtaLenAckAfterNoise(noise: string)
    requires CR !in noise
    requires !Marked(noise, OtaLenAck, OtaFail)
    ensures ParseOtaLen(noise + [CR] + OtaLenAck + [CR]).code == Ok
  {
    assert CR !in OtaLenAck;
    TwoCompletedLines(noise, OtaLenAck);
    ContainsSelf(OtaLenAck);
    var lines := [noise, OtaLenAck];
    assert lines[1..] == [OtaLenAck];
    assert FirstVerdict([OtaLenAck], OtaLenAck, OtaFail) == Ok;
    assert FirstVerdict(lines, OtaLenAck, OtaFail) == Ok;
    assert CompletedLines(noise + [CR] + OtaLenAck + [CR]) == lines;
  }

  /** A reply of the noise "garbage", then the acknowledgement, each ending in a carriage return, is Ok. */
  lemma OtaLenAckLine()
    ensures ParseOtaLen("garbage" + [CR] + OtaLenAck + [CR]).code == Ok
  {
    NotContainsLonger("garbage", OtaLenAck);
    NotContainsLonger("garbage", OtaFail);
    OtaLenAckAfterNoise("garbage");
  }
}

=== FILE: cli.dfy ===
/**
 The start-up decision of index.js: the command line is parsed against the
 optional-argument defaults (no argument is required), the values are
 handed to the libraries, and the mode picks one workflow. Sensor mode
 refuses to start without a port, and accepts an address only if it is 0
 (scan only) or an entry of the sensor address table.
 */
module Cli {
  import opened Wrappers
  import Args
  import A2lModbus

  /** The configuration file used when `-file` is not given. */
  const DefaultConfigPath: string := "c550_config_default.txt"

  const PortMessage: string := "Must specify -port argument in a2l mode such as -port COM5"
  const AddressMessage: string := "Valid addresses are 0x40-0x45 and 0x55"

  /** The optional arguments and their defaults: `{file, mode, adr, port, run_once}`. */
  const Defaults: Args.Table := map[
    "file" := Args.Text(DefaultConfigPath),
    "mode" := Args.Text("config"),
    "adr" := Args.Number(0),
    "port" := Args.Text("null"),
    "run_once" := Args.Number(0)]

  /** What the tool goes on to do. */
  datatype Workflow =
    | WatchAndConfigure(configPath: Args.JsValue, exitOnPass: bool)
    | SensorServer(port: Args.JsValue, config: A2lModbus.Config)
    | FirmwareUpdate(port: Args.JsValue, path: Args.JsValue)
    | Refused(message: string)
    | Idle

  /** JavaScript truthiness of a table value. */
  predicate Truthy(v: Args.JsValue)
  {
    match v
    case Number(n) => n != 0
    case NaN => false
    case Text(s) => |s| > 0
    case Undefined => false
  }

  /** `value == text` for a value of the table: only a string with those characters matches. */
  predicate Is(v: Args.JsValue, text: string)
  {
    v == Args.Text(text)
  }

  /** The parsed optional arguments; with nothing required and requirements ignored, parsing always returns. */
  function Options(argv: seq<string>, parseInt: Args.ParseInt): (opts: Args.Table)
    ensures opts.Keys == Defaults.Keys
  {
    var r := Args.ProcessArgs(map[], Defaults, true, argv, parseInt);
    assert r.Parsed?;
    r.optional
  }

  /** The sensor-mode checks of index.js, given the parsed port, address and run-once values. */
  function SensorMode(port: Args.JsValue, adr: Args.JsValue, exitOnPass: bool): (w: Workflow)
    ensures Is(port, "null") ==> w == Refused(PortMessage)
    ensures !Is(port, "null") && adr == Args.Number(0) ==> w == SensorServer(port, A2lModbus.Config(true, 0, exitOnPass))
    ensures !Is(port, "null") && adr != Args.Number(0) ==>
              if adr.Number? && adr.n in A2lModbus.Addresses
              then w == SensorServer(port, A2lModbus.Config(false, adr.n, exitOnPass))
              else w == Refused(AddressMessage)
  {
    if Is(port, "null") then Refused(PortMessage)
    else if adr == Args.Number(0) then SensorServer(port, A2lModbus.Config(true, 0, exitOnPass))
    else if adr.Number? && adr.n in A2lModbus.Addresses then SensorServer(port, A2lModbus.Config(false, adr.n, exitOnPass))
    else Refused(AddressMessage)
  }

  /** index.js lines 71 to 118 as one decision over the command line. */
  function Decide(argv: seq<string>, parseInt: Args.ParseInt): (w: Workflow)
    ensures w.WatchAndConfigure? <==> Is(Options(argv, parseInt)["mode"], "config")
    ensures w.FirmwareUpdate? <==> Is(Options(argv, parseInt)["mode"], "update")
    ensures w.SensorServer? || w.Refused? <==> Is(Options(argv, parseInt)["mode"], "a2l")
    ensures w.Idle? <==> !Is(Options(argv, parseInt)["mode"], "config") && !Is(Options(argv, parseInt)["mode"], "a2l") && !Is(Options(argv, parseInt)["mode"], "update")
  {
    var opts := Options(argv, parseInt);
    var exitOnPass := Truthy(opts["run_once"]);
    if Is(opts["mode"], "config") then WatchAndConfigure(opts["file"], exitOnPass)
    else if Is(opts["mode"], "a2l") then SensorMode(opts["port"], opts["adr"], exitOnPass)
    else if Is(opts["mode"], "update") then FirmwareUpdate(opts["port"], opts["file"])
    else Idle
  }

  /** Without flags the tool watches for controllers and configures them from the default file, without exiting. */
  lemma NoFlags(argv: seq<string>, parseInt: Args.ParseInt)
    requires forall i :: 0 <= i < |argv| ==> |argv[i]| == 0 || argv[i][0] != '-'
    ensures Decide(argv, parseInt) == WatchAndConfigure(Args.Text(DefaultConfigPath), false)
  {
    var opts := Options(argv, parseInt);
    forall k | k in Defaults
      ensures opts[k] == Defaults[k]
    {
      Args.ValueOfKey(Defaults, argv, parseInt, k);
      assert Args.Flag(k)[0] == '-';
    }
  }

  /** A sensor server is started only for scanning or for an address of the table. */
  lemma SensorAddressChecked(argv: seq<string>, parseInt: Args.ParseInt)
    ensures var w := Decide(argv, parseInt);
            w.SensorServer? ==> !Is(w.port, "null") && (w.config.scanOnly || w.config.configAdr in A2lModbus.Addresses)
  {
  }

  /** A token that cannot be mistaken for a flag. */
  predicate Plain(token: string)
  {
    |token| == 0 || token[0] != '-'
  }

  /** `node index.js -mode a2l -port P -adr A`: the program's own path and script, then three flags with their values. */
  predicate SensorCommand(argv: seq<string>, port: string, token: string)
  {
    && |argv| == 8 && Plain(argv[0]) && Plain(argv[1])
    && argv[2] == Args.Flag("mode") && argv[3] == "a2l"
    && argv[4] == Args.Flag("port") && argv[5] == port
    && argv[6] == Args.Flag("adr") && argv[7] == token
    && Plain(port) && Plain(token)
  }

  /** Where the flags sit in a sensor command line. */
  lemma SensorCommandFlags(argv: seq<string>, port: string, token: string)
    requires SensorCommand(argv, port, token)
    ensures Args.FlagIndex(argv, "mode") == Some(2)
    ensures Args.FlagIndex(argv, "port") == Some(4)
    ensures Args.FlagIndex(argv, "adr") == Some(6)
    ensures Args.FlagIndex(argv, "run_once") == None
  {
    assert argv[2][1] == 'm' && argv[4][1] == 'p' && argv[6][1] == 'a' && argv[3][0] == 'a';
    assert Args.Flag("port")[1] == 'p' && Args.Flag("adr")[1] == 'a';
    assert Args.FlagIndex(argv, "port") == Some(4) by {
      assert forall j :: 0 <= j < 4 ==> argv[j] != Args.Flag("port");
    }
    assert Args.FlagIndex(argv, "adr") == Some(6) by {
      assert forall j :: 0 <= j < 6 ==> argv[j] != Args.Flag("adr");
    }
    assert Args.FlagIndex(argv, "run_once") == None by {
      assert |Args.Flag("run_once")| == 9;
      assert forall j :: 2 <= j < |argv| && j % 2 == 0 ==> |argv[j]| < 9;
      assert forall j :: 0 <= j < |argv| ==> argv[j] != Args.Flag("run_once");
    }
  }

  /**
   `node index.js -mode a2l -port P -adr A`, where `A` parses to a table
   address, starts a sensor server on `P` that assigns that address.
   */
  lemma AssignFromCommandLine(argv: seq<string>, parseInt: Args.ParseInt, port: string, token: string, adr: int)
    requires SensorCommand(argv, port, token)
    requires port != "null"
    requires parseInt(token) == Some(adr) && adr in A2lModbus.Addresses
    ensures Decide(argv, parseInt) == SensorServer(Args.Text(port), A2lModbus.Config(false, adr, false))
  {
    SensorCommandFlags(argv, port, token);
    var opts := Options(argv, parseInt);
    assert opts["mode"] == Args.Text("a2l");
    assert opts["port"] == Args.Text(port);
    assert opts["adr"] == Args.Number(adr);
    assert opts["run_once"] == Args.Number(0);
  }

  /**
   The address validation is what makes the assign-mode skip land on a real
   table entry: a sensor server started from such a command line skips
   exactly one address in every pass.
   */
  lemma AssignSkipIsReal(argv: seq<string>, parseInt: Args.ParseInt, port: string, token: string, adr: int, bus: A2lModbus.Bus)
    requires SensorCommand(argv, port, token)
    requires port != "null"
    requires parseInt(token) == Some(adr) && adr in A2lModbus.Addresses
    ensures var cfg := A2lModbus.Config(false, adr, false);
            && Decide(argv, parseInt) == SensorServer(Args.Text(port), cfg)
            && |set k | 0 <= k < |A2lModbus.Addresses| && A2lModbus.Scan(bus, cfg).visits[k].outcome == A2lModbus.Skipped| == 1
  {
    AssignFromCommandLine(argv, parseInt, port, token, adr);
    A2lModbus.AssignSkipsExactlyOne(bus, A2lModbus.Config(false, adr, false));
  }
}

=== FILE: ota.dfy ===
/**
 The two controller workflows of src/c550_lib.js. `test_update` checks that
 the controller answers the identity query, announces the firmware length,
 then sends the firmware in consecutive 2048-byte blocks, each waiting for
 its own acknowledgement; the first refused block ends the update.
 `test_command` checks identity and then pushes the configuration text.
 The reply to each transaction is an input here.
 */
module Ota {
  import opened Wrappers
  import opened Classifiers

  type Byte = b: int | 0 <= b < 256

  const ChunkSize: nat := 2048

  /** The transactions the workflows run, in the order they run them. */
  datatype Request =
    | WifiStatus
    | AnnounceLength(length: nat)
    | SendBlock(block: seq<Byte>)
    | PushConfig(text: string)

  /**
   How an update ended. `Loaded` is followed by `process.exit(0)`, so it
   also stands for the process exiting; no other outcome exits. `Aborted`
   is the exception exit: the error is logged, the process keeps running,
   and no offset is reported.
   */
  datatype UpdateOutcome = NoContact | LengthRefused | BlockRefused(offset: nat) | Loaded | Aborted

  /** The transactions an update ran and how it ended. */
  datatype UpdateRun = UpdateRun(requests: seq<Request>, outcome: UpdateOutcome)

  function Min(a: int, b: int): int
  {
    if a <= b then a else b
  }

  /** `Buffer.slice(start, end)`: both ends are clamped to the buffer. */
  function Slice(data: seq<Byte>, start: nat, end: nat): (r: seq<Byte>)
    ensures |r| <= |data|
    ensures start <= end ==> |r| == Min(end, |data|) - Min(start, |data|)
  {
    var s := Min(start, |data|);
    var e := Min(end, |data|);
    if e <= s then [] else data[s..e]
  }

  /** Block number `k` of the firmware. */
  function Block(firmware: seq<Byte>, k: nat): (r: seq<Byte>)
    ensures k * ChunkSize < |firmware| ==> r == firmware[k * ChunkSize..Min(k * ChunkSize + ChunkSize, |firmware|)]
    ensures k * ChunkSize >= |firmware| ==> r == []
  {
    Slice(firmware, k * ChunkSize, k * ChunkSize + ChunkSize)
  }

  /** The number of blocks needed for `n` bytes, rounding up. */
  function BlockCount(n: nat): nat
  {
    (n + ChunkSize - 1) / ChunkSize
  }

  /** The device's reply to block transaction `k`; a reply that never comes is a timeout. */
  function Reply(replies: seq<Status>, k: nat): Status
  {
    if k < |replies| then replies[k] else TimedOut
  }

  /** The firmware bytes carried by the block transactions of `requests`, in order. */
  function Payload(requests: seq<Request>): seq<Byte>
  {
    if |requests| == 0 then []
    else
      var last := requests[|requests| - 1];
      Payload(requests[..|requests| - 1]) + (if last.SendBlock? then last.block else [])
  }

  /** `i` blocks cover `n` bytes and the last of them is not wasted: `i` is the rounded-up quotient. */
  lemma BlockCountExact(n: nat, i: nat)
    requires i * ChunkSize >= n
    requires i == 0 || (i - 1) * ChunkSize < n
    ensures i == BlockCount(n)
  {
  }

  /** The payload of two request lists one after the other is the two payloads one after the other. */
  lemma {:induction false} PayloadAppend(a: seq<Request>, b: seq<Request>)
    ensures Payload(a + b) == Payload(a) + Payload(b)
    decreases |b|
  {
    if |b| > 0 {
      var ab := a + b;
      assert ab[..|ab| - 1] == a + b[..|b| - 1];
      assert ab[|ab| - 1] == b[|b| - 1];
      PayloadAppend(a, b[..|b| - 1]);
    } else {
      assert a + b == a;
    }
  }

  /** The transactions for the first `n` blocks of the firmware, in order. */
  function Blocks(firmware: seq<Byte>, n: nat): (r: seq<Request>)
    ensures |r| == n
  {
    if n == 0 then [] else Blocks(firmware, n - 1) + [SendBlock(Block(firmware, n - 1))]
  }

  /** Block transaction `k` of the list carries block `k`, the slice at `k * 2048`. */
  lemma {:induction false} BlocksAt(firmware: seq<Byte>, n: nat)
    ensures forall k :: 0 <= k < n ==> Blocks(firmware, n)[k] == SendBlock(Block(firmware, k))
  {
    if n > 0 {
      BlocksAt(firmware, n - 1);
      assert forall k :: 0 <= k < n - 1 ==> Blocks(firmware, n)[k] == Blocks(firmware, n - 1)[k];
    }
  }

  /** A list whose transaction `k` carries block `k` for every `k` is the list of the first blocks. */
  lemma BlocksOfEach(firmware: seq<Byte>, sent: seq<Request>)
    requires forall k :: 0 <= k < |sent| ==> sent[k] == SendBlock(Block(firmware, k))
    ensures sent == Blocks(firmware, |sent|)
  {
    BlocksAt(firmware, |sent|);
  }

  /** Blocks that all start inside the firmware carry, in order, the firmware up to where the last one ends. */
  lemma {:induction false} BlocksPayload(firmware: seq<Byte>, n: nat)
    requires n == 0 || (n - 1) * ChunkSize < |firmware|
    ensures Payload(Blocks(firmware, n)) == firmware[..Min(n * ChunkSize, |firmware|)]
  {
    if n > 0 {
      BlocksPayload(firmware, n - 1);
      assert Min((n - 1) * ChunkSize, |firmware|) == (n - 1) * ChunkSize;
      assert n * ChunkSize == (n - 1) * ChunkSize + ChunkSize;
      PayloadStep(Blocks(firmware, n - 1), firmware, n - 1);
    }
  }

  /** Block `k`, sent once the payload has reached its offset, extends the payload up to where the block ends. */
  lemma PayloadStep(sent: seq<Request>, firmware: seq<Byte>, k: nat)
    requires k * ChunkSize < |firmware|
    requires Payload(sent) == firmware[..k * ChunkSize]
    ensures Payload(sent + [SendBlock(Block(firmware, k))]) ==
            firmware[..Min(k * ChunkSize + ChunkSize, |firmware|)]
  {
    var start := k * ChunkSize;
    var end := Min(start + ChunkSize, |firmware|);
    PayloadSnoc(sent, Block(firmware, k));
    assert firmware[..end] == firmware[..start] + firmware[start..end];
  }

  /** One more block transaction adds its block to the end of the payload. */
  lemma PayloadSnoc(requests: seq<Request>, block: seq<Byte>)
    ensures Payload(requests + [SendBlock(block)]) == Payload(requests) + block
  {
    var r := requests + [SendBlock(block)];
    assert r[..|r| - 1] == requests;
  }

  /**
   The chunk loop of `test_update`: block `k` starts at byte `k * 2048`;
   the loop moves on only when a block is acknowledged and stops at the
   first block that is not, reporting the offset it was sent from.
   */
  method SendBlocks(firmware: seq<Byte>, blockReplies: seq<Status>) returns (sent: seq<Request>, refused: Option<nat>)
    ensures forall k :: 0 <= k < |sent| ==> sent[k] == SendBlock(Block(firmware, k))
    ensures forall k :: 0 <= k && k + 1 < |sent| ==> Reply(blockReplies, k) == Ok
    ensures |sent| <= BlockCount(|firmware|)
    ensures refused.None? ==>
              && |sent| == BlockCount(|firmware|)
              && |sent| * ChunkSize >= |firmware|
              && (|sent| == 0 || (|sent| - 1) * ChunkSize < |firmware|)
              && forall k :: 0 <= k < |sent| ==> Reply(blockReplies, k) == Ok
    ensures refused.Some? ==>
              && |sent| >= 1
              && refused.value == (|sent| - 1) * ChunkSize
              && refused.value < |firmware|
              && Reply(blockReplies, |sent| - 1) != Ok
  {
    sent := [];
    var lenSent: nat := 0;
    while lenSent < |firmware|
      invariant lenSent == Min(|sent| * ChunkSize, |firmware|)
      invariant |sent| == 0 || (|sent| - 1) * ChunkSize < |firmware|
      invariant sent == Blocks(firmware, |sent|)
      invariant forall k :: 0 <= k < |sent| ==> Reply(blockReplies, k) == Ok
      decreases |firmware| - lenSent
    {
      var buf := Slice(firmware, lenSent, lenSent + ChunkSize);
      assert lenSent == |sent| * ChunkSize;
      BlockCountBound(|firmware|, |sent|);
      var before := sent;
      assert buf == Block(firmware, |before|);
      sent := sent + [SendBlock(buf)];
      assert sent == Blocks(firmware, |sent|);
      if Reply(blockReplies, |before|) != Ok {
        BlocksAt(firmware, |sent|);
        return sent, Some(lenSent);
      }
      assert |sent| * ChunkSize == lenSent + ChunkSize;
      lenSent := lenSent + |buf|;
    }
    BlockCountExact(|firmware|, |sent|);
    BlocksAt(firmware, |sent|);
    return sent, None;
  }

  /** The identity query and the length announcement that go ahead of the blocks. */
  function Header(firmware: seq<Byte>): seq<Request>
  {
    [WifiStatus, AnnounceLength(|firmware|)]
  }

  /** The header carries no firmware bytes. */
  lemma HeaderPayload(firmware: seq<Byte>)
    ensures Payload(Header(firmware)) == []
  {
    var h := Header(firmware);
    assert Payload(h[..1]) == [];
  }

  /** After the two header transactions, transaction `k` carries block `k - 2`. */
  lemma HeaderThenBlocks(firmware: seq<Byte>, n: nat)
    ensures var r := Header(firmware) + Blocks(firmware, n);
            forall k :: 2 <= k < |r| ==> r[k] == SendBlock(Block(firmware, k - 2))
  {
    var h := Header(firmware);
    var b := Blocks(firmware, n);
    BlocksAt(firmware, n);
    assert forall k :: 2 <= k < |h + b| ==> (h + b)[k] == b[k - 2];
  }

  /** The header and the blocks together carry the firmware up to where the last block ends. */
  lemma HeaderThenBlocksPayload(firmware: seq<Byte>, n: nat)
    requires n == 0 || (n - 1) * ChunkSize < |firmware|
    ensures Payload(Header(firmware) + Blocks(firmware, n)) == firmware[..Min(n * ChunkSize, |firmware|)]
  {
    HeaderPayload(firmware);
    BlocksPayload(firmware, n);
    PayloadAppend(Header(firmware), Blocks(firmware, n));
  }

  /** A run whose blocks cover the image, the last one starting inside it, carries exactly the image. */
  lemma LoadedPayload(firmware: seq<Byte>, n: nat)
    requires n * ChunkSize >= |firmware|
    requires n == 0 || (n - 1) * ChunkSize < |firmware|
    ensures Payload(Header(firmware) + Blocks(firmware, n)) == firmware
  {
    HeaderThenBlocksPayload(firmware, n);
    assert firmware[..Min(n * ChunkSize, |firmware|)] == firmware;
  }

  /** Without its last block, a run of `n` blocks carries the image up to where block `n - 1` starts. */
  lemma RefusedPayload(firmware: seq<Byte>, n: nat)
    requires n >= 1 && (n - 1) * ChunkSize < |firmware|
    ensures var r := Header(firmware) + Blocks(firmware, n);
            Payload(r[..|r| - 1]) == firmware[..(n - 1) * ChunkSize]
  {
    var r := Header(firmware) + Blocks(firmware, n);
    assert r[..|r| - 1] == Header(firmware) + Blocks(firmware, n - 1);
    if n >= 2 {
      assert (n - 2) * ChunkSize < |firmware|;
    }
    HeaderThenBlocksPayload(firmware, n - 1);
  }

  /**
   The part of `test_update` after both checks passed: the identity query
   and the length announcement, then the chunk loop. After each
   acknowledged block the progress line is redrawn with
   `process.stdout.clearLine`, which exists only when standard output is a
   terminal; otherwise the call throws right after the first acknowledged
   block and the update ends in the exception handler.
   */
  method LoadBlocks(firmware: seq<Byte>, terminal: bool, blockReplies: seq<Status>) returns (run: UpdateRun)
    ensures |run.requests| >= 2 && run.requests[0] == WifiStatus && run.requests[1] == AnnounceLength(|firmware|)
    ensures forall k :: 2 <= k < |run.requests| ==> run.requests[k] == SendBlock(Block(firmware, k - 2))
    ensures forall k :: 0 <= k && k + 3 < |run.requests| ==> Reply(blockReplies, k) == Ok
    ensures run.outcome == Loaded || run.outcome.BlockRefused? || run.outcome == Aborted
    ensures run.outcome == Loaded ==>
              && |run.requests| == 2 + BlockCount(|firmware|)
              && Payload(run.requests) == firmware
    ensures run.outcome.BlockRefused? ==>
              && run.outcome.offset < |firmware|
              && run.outcome.offset == (|run.requests| - 3) * ChunkSize
              && Payload(run.requests[..|run.requests| - 1]) == firmware[..run.outcome.offset]
              && Reply(blockReplies, |run.requests| - 3) != Ok
    ensures run.outcome == Aborted ==>
              && |run.requests| == 3
              && Payload(run.requests) == firmware[..Min(ChunkSize, |firmware|)]
    ensures run.outcome == Aborted <==> !terminal && |firmware| > 0 && Reply(blockReplies, 0) == Ok
    ensures run.outcome == Loaded <==>
              && (terminal || |firmware| == 0)
              && forall k :: 0 <= k < BlockCount(|firmware|) ==> Reply(blockReplies, k) == Ok
  {
    if !terminal && |firmware| > 0 {
      run := LoadFirstBlock(firmware, blockReplies);
      BlockCountBound(|firmware|, 0);
    } else {
      run := LoadEveryBlock(firmware, blockReplies);
    }
  }

  /**
   The chunk loop when standard output is not a terminal: the first block
   goes out, and if it is acknowledged the progress redraw throws.
   */
  method LoadFirstBlock(firmware: seq<Byte>, blockReplies: seq<Status>) returns (run: UpdateRun)
    requires |firmware| > 0
    ensures run.requests == Header(firmware) + [SendBlock(Block(firmware, 0))]
    ensures run.outcome == Aborted <==> Reply(blockReplies, 0) == Ok
    ensures run.outcome != Aborted ==> run.outcome == BlockRefused(0)
    ensures Payload(run.requests[..2]) == [] && Payload(run.requests) == firmware[..Min(ChunkSize, |firmware|)]
  {
    var requests := Header(firmware) + Blocks(firmware, 1);
    HeaderThenBlocks(firmware, 1);
    assert requests[..2] == Header(firmware) + Blocks(firmware, 0);
    HeaderThenBlocksPayload(firmware, 0);
    HeaderThenBlocksPayload(firmware, 1);
    if Reply(blockReplies, 0) != Ok {
      return UpdateRun(requests, BlockRefused(0));
    }
    return UpdateRun(requests, Aborted);
  }

  /** The chunk loop when standard output is a terminal: it runs to the end or to the first refused block. */
  method LoadEveryBlock(firmware: seq<Byte>, blockReplies: seq<Status>) returns (run: UpdateRun)
    ensures |run.requests| >= 2 && run.requests[0] == WifiStatus && run.requests[1] == AnnounceLength(|firmware|)
    ensures forall k :: 2 <= k < |run.requests| ==> run.requests[k] == SendBlock(Block(firmware, k - 2))
    ensures forall k :: 0 <= k && k + 3 < |run.requests| ==> Reply(blockReplies, k) == Ok
    ensures run.outcome == Loaded || run.outcome.BlockRefused?
    ensures run.outcome == Loaded ==>
              && |run.requests| == 2 + BlockCount(|firmware|)
              && Payload(run.requests) == firmware
    ensures run.outcome.BlockRefused? ==>
              && run.outcome.offset < |firmware|
              && run.outcome.offset == (|run.requests| - 3) * ChunkSize
              && Payload(run.requests[..|run.requests| - 1]) == firmware[..run.outcome.offset]
              && Reply(blockReplies, |run.requests| - 3) != Ok
    ensures run.outcome == Loaded <==> forall k :: 0 <= k < BlockCount(|firmware|) ==> Reply(blockReplies, k) == Ok
  {
    var sent, refused := SendBlocks(firmware, blockReplies);
    BlocksOfEach(firmware, sent);
    var n := |sent|;
    var requests := Header(firmware) + Blocks(firmware, n);
    HeaderThenBlocks(firmware, n);
    if refused.Some? {
      assert n - 1 < BlockCount(|firmware|) && Reply(blockReplies, n - 1) != Ok;
      RefusedPayload(firmware, n);
      return UpdateRun(requests, BlockRefused(refused.value));
    }
    LoadedPayload(firmware, n);
    return UpdateRun(requests, Loaded);
  }

  /**
   `test_update` once the image file is read. Nothing is sent past the
   identity query unless it succeeds, and no block unless the length
   announcement also succeeds. Blocks are consecutive slices; the offset
   advances by a block's length only when that block was acknowledged.
   */
  method UpdateImage(firmware: seq<Byte>, terminal: bool, identity: Status, lengthReply: Status, blockReplies: seq<Status>)
    returns (run: UpdateRun)
    ensures |run.requests| >= 1 && run.requests[0] == WifiStatus
    ensures run.outcome == NoContact <==> identity != Ok
    ensures identity != Ok ==> run.requests == [WifiStatus]
    ensures identity == Ok ==> |run.requests| >= 2 && run.requests[1] == AnnounceLength(|firmware|)
    ensures run.outcome == LengthRefused <==> identity == Ok && lengthReply != Ok
    ensures forall k :: 0 <= k < |run.requests| && run.requests[k].SendBlock? ==> identity == Ok && lengthReply == Ok
    ensures forall k :: 2 <= k < |run.requests| ==> run.requests[k] == SendBlock(Block(firmware, k - 2))
    ensures forall k :: 0 <= k && k + 3 < |run.requests| ==> Reply(blockReplies, k) == Ok
    ensures run.outcome == Loaded ==>
              && |run.requests| == 2 + BlockCount(|firmware|)
              && Payload(run.requests) == firmware
    ensures run.outcome.BlockRefused? ==>
              && run.outcome.offset < |firmware|
              && run.outcome.offset == (|run.requests| - 3) * ChunkSize
              && Payload(run.requests[..|run.requests| - 1]) == firmware[..run.outcome.offset]
              && Reply(blockReplies, |run.requests| - 3) != Ok
    ensures run.outcome == Aborted <==>
              && identity == Ok && lengthReply == Ok
              && !terminal && |firmware| > 0 && Reply(blockReplies, 0) == Ok
    ensures run.outcome == Loaded <==>
              && identity == Ok && lengthReply == Ok
              && (terminal || |firmware| == 0)
              && forall k :: 0 <= k < BlockCount(|firmware|) ==> Reply(blockReplies, k) == Ok
  {
    if identity != Ok {
      return UpdateRun([WifiStatus], NoContact);
    }
    if lengthReply != Ok {
      return UpdateRun([WifiStatus, AnnounceLength(|firmware|)], LengthRefused);
    }
    run := LoadBlocks(firmware, terminal, blockReplies);
  }

  /**
   `test_update` from the top: the image file is read before anything is
   sent, and a file that cannot be read ends the update in the exception
   handler with no transaction run.
   */
  method Update(file: Option<seq<Byte>>, terminal: bool, identity: Status, lengthReply: Status, blockReplies: seq<Status>)
    returns (run: UpdateRun)
    ensures file.None? ==> run == UpdateRun([], Aborted)
    ensures file.Some? ==> |run.requests| >= 1 && run.requests[0] == WifiStatus
    ensures run.outcome == NoContact <==> file.Some? && identity != Ok
    ensures run.outcome == Loaded ==> file.Some? && Payload(run.requests) == file.value
    ensures run.outcome == Aborted <==>
              || file.None?
              || (identity == Ok && lengthReply == Ok && !terminal && |file.value| > 0 && Reply(blockReplies, 0) == Ok)
  {
    if file.None? {
      return UpdateRun([], Aborted);
    }
    run := UpdateImage(file.value, terminal, identity, lengthReply, blockReplies);
  }

  /** A block that starts inside the firmware is among the first `BlockCount` blocks. */
  lemma BlockCountBound(n: nat, i: nat)
    requires i * ChunkSize < n
    ensures i < BlockCount(n)
  {
  }

  /** How a configuration push ended; `ConfigAborted` is the exception exit, which only logs. */
  datatype ConfigOutcome = ConfigNoContact | ConfigLoaded | ConfigInvalid | ConfigNotLoaded | ConfigAborted

  /** The transactions a configuration push ran, how it ended, and whether the process then exits. */
  datatype ConfigRun = ConfigRun(requests: seq<Request>, outcome: ConfigOutcome, exits: bool)

  /**
   `test_command`: a configuration file that cannot be read ends the run in
   the exception handler before anything is sent; otherwise the
   configuration is pushed only to a controller that answered the identity
   query, an explicit refusal is reported apart from a timeout, and the
   process exits only after a successful push with the run-once option set.
   */
  function ProvisionConfig(file: Option<string>, identity: Status, push: Status, exitOnPass: bool): (r: ConfigRun)
    ensures file.None? ==> r == ConfigRun([], ConfigAborted, false)
    ensures file.Some? ==> |r.requests| >= 1 && r.requests[0] == WifiStatus
    ensures file.Some? ==> (PushConfig(file.value) in r.requests <==> identity == Ok)
    ensures r.outcome == ConfigNoContact <==> file.Some? && identity != Ok
    ensures r.outcome == ConfigLoaded <==> file.Some? && identity == Ok && push == Ok
    ensures r.outcome == ConfigInvalid <==> file.Some? && identity == Ok && push == Failed
    ensures r.outcome == ConfigNotLoaded <==> file.Some? && identity == Ok && push != Ok && push != Failed
    ensures r.outcome == ConfigAborted <==> file.None?
    ensures r.exits <==> r.outcome == ConfigLoaded && exitOnPass
  {
    match file
    case None => ConfigRun([], ConfigAborted, false)
    case Some(text) =>
      if identity != Ok then ConfigRun([WifiStatus], ConfigNoContact, false)
      else
        var requests := [WifiStatus, PushConfig(text)];
        if push == Ok then ConfigRun(requests, ConfigLoaded, exitOnPass)
        else if push == Failed then ConfigRun(requests, ConfigInvalid, false)
        else ConfigRun(requests, ConfigNotLoaded, false)
  }

  /** A 5000-byte image goes out in three blocks of 2048, 2048 and 904 bytes. */
  lemma FiveThousandBytes(firmware: seq<Byte>)
    requires |firmware| == 5000
    ensures BlockCount(|firmware|) == 3
    ensures |Block(firmware, 0)| == 2048 && |Block(firmware, 1)| == 2048 && |Block(firmware, 2)| == 904
  {
  }
}

=== FILE: serial_layer.dfy ===
/**
 The hot-plug watcher of src/serial_layer.js: each poll compares the
 host's port enumeration with the previous snapshot, keyed by path,
 reports the ports that appeared and the ports that vanished, and then
 replaces the snapshot with the new enumeration. An enumeration that
 fails leaves the detector before any comparison: nothing is reported and
 the snapshot is kept.
 */
module SerialLayer {
  import opened Wrappers

  /** One entry of the host's port enumeration; `details` stands for every attribute besides the path. */
  datatype Port = Port(path: string, details: map<string, string>)

  /** The two events of the watcher; each carries the port object it is about. */
  datatype PortEvent = PortAdded(port: Port) | PortLost(port: Port)

  /** What one call of the change detector produces. */
  datatype Tick = Tick(events: seq<PortEvent>, snapshot: seq<Port>)

  /** The paths present in an enumeration. */
  function Paths(ports: seq<Port>): set<string>
  {
    set p | p in ports :: p.path
  }

  /** A `port_added` event for each entry of `current`, in order, whose path is not in `known`. */
  function Arrivals(current: seq<Port>, known: set<string>): (added: seq<PortEvent>)
    ensures forall i :: 0 <= i < |added| ==> added[i].PortAdded? && added[i].port in current
    ensures forall i :: 0 <= i < |added| ==> added[i].port.path !in known
  {
    if |current| == 0 then []
    else
      var rest := Arrivals(current[1..], known);
      if current[0].path in known then rest else [PortAdded(current[0])] + rest
  }

  /** A `port_lost` event for each entry of `previous`, in order, whose path is not in `present`. */
  function Departures(previous: seq<Port>, present: set<string>): (lost: seq<PortEvent>)
    ensures forall i :: 0 <= i < |lost| ==> lost[i].PortLost? && lost[i].port in previous
    ensures forall i :: 0 <= i < |lost| ==> lost[i].port.path !in present
  {
    if |previous| == 0 then []
    else
      var rest := Departures(previous[1..], present);
      if previous[0].path in present then rest else [PortLost(previous[0])] + rest
  }

  /** Each entry whose path is not known yields exactly one `port_added` event; known ones yield none. */
  lemma {:induction false} ArrivalsCount(current: seq<Port>, known: set<string>, p: Port)
    ensures multiset(Arrivals(current, known))[PortAdded(p)] == if p.path in known then 0 else multiset(current)[p]
    decreases |current|
  {
    if |current| > 0 {
      var c, tail := current[0], current[1..];
      ArrivalsCount(tail, known, p);
      assert current == [c] + tail;
      assert multiset(current) == multiset([c]) + multiset(tail);
      var rest := Arrivals(tail, known);
      if c.path !in known {
        assert Arrivals(current, known) == [PortAdded(c)] + rest;
        assert multiset(Arrivals(current, known)) == multiset([PortAdded(c)]) + multiset(rest);
      }
    }
  }

  /** Each entry whose path is no longer present yields exactly one `port_lost` event; present ones yield none. */
  lemma {:induction false} DeparturesCount(previous: seq<Port>, present: set<string>, p: Port)
    ensures multiset(Departures(previous, present))[PortLost(p)] == if p.path in present then 0 else multiset(previous)[p]
    decreases |previous|
  {
    if |previous| > 0 {
      var c, tail := previous[0], previous[1..];
      DeparturesCount(tail, present, p);
      assert previous == [c] + tail;
      assert multiset(previous) == multiset([c]) + multiset(tail);
      var rest := Departures(tail, present);
      if c.path !in present {
        assert Departures(previous, present) == [PortLost(c)] + rest;
        assert multiset(Departures(previous, present)) == multiset([PortLost(c)]) + multiset(rest);
      }
    }
  }

  /**
   `detect_serial_port_change`: added events first, then lost events, then
   the snapshot becomes the new enumeration. A call without an emitter (the
   baseline call) reports nothing but still replaces the snapshot.
   */
  function DetectChange(previous: seq<Port>, current: seq<Port>, emitting: bool): (t: Tick)
    ensures t.snapshot == current
    ensures !emitting ==> t.events == []
    ensures forall i, j :: 0 <= i < j < |t.events| && t.events[i].PortLost? ==> t.events[j].PortLost?
    ensures forall i :: 0 <= i < |t.events| ==> t.events[i].port.path !in Paths(previous) * Paths(current)
    ensures forall i :: 0 <= i < |t.events| && t.events[i].PortAdded? ==> t.events[i].port in current
    ensures forall i :: 0 <= i < |t.events| && t.events[i].PortLost? ==> t.events[i].port in previous
  {
    if !emitting then Tick([], current)
    else Tick(Arrivals(current, Paths(previous)) + Departures(previous, Paths(current)), current)
  }

  /** A polled entry whose path was not in the snapshot is reported as added exactly once per occurrence. */
  lemma AddedExactlyOnce(previous: seq<Port>, current: seq<Port>, p: Port)
    ensures multiset(DetectChange(previous, current, true).events)[PortAdded(p)] ==
            if p.path in Paths(previous) then 0 else multiset(current)[p]
  {
    var added := Arrivals(current, Paths(previous));
    var lost := Departures(previous, Paths(current));
    ArrivalsCount(current, Paths(previous), p);
    assert PortAdded(p) !in multiset(lost);
  }

  /** A snapshot entry whose path is no longer enumerated is reported as lost exactly once per occurrence. */
  lemma LostExactlyOnce(previous: seq<Port>, current: seq<Port>, p: Port)
    ensures multiset(DetectChange(previous, current, true).events)[PortLost(p)] ==
            if p.path in Paths(current) then 0 else multiset(previous)[p]
  {
    var added := Arrivals(current, Paths(previous));
    var lost := Departures(previous, Paths(current));
    DeparturesCount(previous, Paths(current), p);
    assert PortLost(p) !in multiset(added);
  }

  /** The baseline call of `serial_port_list_poll`: no emitter. */
  function Baseline(current: seq<Port>): (t: Tick)
    ensures t == Tick([], current)
  {
    DetectChange([], current, false)
  }

  /** No entry is reported as added when every path is already known. */
  lemma {:induction false} NoArrivals(current: seq<Port>, known: set<string>)
    requires forall i :: 0 <= i < |current| ==> current[i].path in known
    ensures Arrivals(current, known) == []
    decreases |current|
  {
    if |current| > 0 {
      NoArrivals(current[1..], known);
    }
  }

  /** No entry is reported as lost when every path is still present. */
  lemma {:induction false} NoDepartures(previous: seq<Port>, present: set<string>)
    requires forall i :: 0 <= i < |previous| ==> previous[i].path in present
    ensures Departures(previous, present) == []
    decreases |previous|
  {
    if |previous| > 0 {
      NoDepartures(previous[1..], present);
    }
  }

  /** Polling an unchanged enumeration reports nothing. */
  lemma PollIdempotent(ports: seq<Port>)
    ensures DetectChange(ports, ports, true).events == []
  {
    forall i | 0 <= i < |ports|
      ensures ports[i].path in Paths(ports)
    {
      assert ports[i] in ports;
    }
    NoArrivals(ports, Paths(ports));
    NoDepartures(ports, Paths(ports));
  }

  /**
   One whole call of `detect_serial_port_change`, the enumeration included;
   `None` is an enumeration that failed. The failure leaves the call before
   the snapshot is replaced, so it reports nothing and keeps the snapshot.
   */
  function Poll(previous: seq<Port>, listed: Option<seq<Port>>, emitting: bool): (t: Tick)
    ensures listed.None? ==> t == Tick([], previous)
    ensures listed.Some? ==> t.snapshot == listed.value
    ensures !emitting ==> t.events == []
  {
    match listed
    case None => Tick([], previous)
    case Some(current) => DetectChange(previous, current, emitting)
  }

  /** No enumeration after position `i` of `polls` succeeded. */
  predicate NoneListedAfter(polls: seq<Option<seq<Port>>>, i: int)
  {
    forall j :: 0 <= j < |polls| && i < j ==> polls[j].None?
  }

  /**
   `serial_port_list_poll` over a finite run of enumerations: a baseline,
   then one emitting poll each. A failed baseline rejects the whole call
   before the loop starts, so nothing is ever polled and the snapshot stays
   the initial empty list. Otherwise the snapshot ends as the last
   enumeration that succeeded.
   */
  function Watch(enumerations: seq<Option<seq<Port>>>): (t: Tick)
    requires |enumerations| >= 1
    ensures enumerations[0].None? ==> t == Tick([], [])
    ensures enumerations[0].Some? ==>
              forall i :: 0 <= i < |enumerations| && enumerations[i].Some? && NoneListedAfter(enumerations, i) ==>
                t.snapshot == enumerations[i].value
  {
    match enumerations[0]
    case None => Tick([], [])
    case Some(first) =>
      var polls := enumerations[1..];
      assert forall i :: 0 < i < |enumerations| && NoneListedAfter(enumerations, i) ==> NoneListedAfter(polls, i - 1);
      assert NoneListedAfter(enumerations, 0) ==> NoneListedAfter(polls, -1);
      WatchFrom(Baseline(first).snapshot, polls)
  }

  /** The emitting polls that follow the baseline, each one's events after the previous one's. */
  function WatchFrom(snapshot: seq<Port>, polls: seq<Option<seq<Port>>>): (t: Tick)
    ensures NoneListedAfter(polls, -1) ==> t == Tick([], snapshot)
    ensures forall i :: 0 <= i < |polls| && polls[i].Some? && NoneListedAfter(polls, i) ==> t.snapshot == polls[i].value
    decreases |polls|
  {
    if |polls| == 0 then Tick([], snapshot)
    else
      var first := Poll(snapshot, polls[0], true);
      var later := WatchFrom(first.snapshot, polls[1..]);
      assert forall i :: 0 < i < |polls| && NoneListedAfter(polls, i) ==> NoneListedAfter(polls[1..], i - 1);
      assert NoneListedAfter(polls, 0) ==> NoneListedAfter(polls[1..], -1);
      Tick(first.events + later.events, later.snapshot)
  }

  /** A failed enumeration anywhere in the run changes neither the events reported nor the final snapshot. */
  lemma {:induction false} FailedPollIgnored(snapshot: seq<Port>, before: seq<Option<seq<Port>>>, after: seq<Option<seq<Port>>>)
    ensures WatchFrom(snapshot, before + [None] + after) == WatchFrom(snapshot, before + after)
    decreases |before|
  {
    if |before| == 0 {
      assert before + [None] + after == [None] + after;
      assert ([None] + after)[1..] == after;
      assert before + after == after;
    } else {
      var next := Poll(snapshot, before[0], true).snapshot;
      assert (before + [None] + after)[0] == before[0];
      assert (before + [None] + after)[1..] == before[1..] + [None] + after;
      assert (before + after)[0] == before[0];
      assert (before + after)[1..] == before[1..] + after;
      FailedPollIgnored(next, before[1..], after);
    }
  }

  /** A port that shows up, stays for one more poll, then leaves yields one added and one lost event. */
  lemma AttachThenDetach(com5: Port)
    ensures Watch([Some([]), Some([com5]), Some([com5]), Some([])]).events == [PortAdded(com5), PortLost(com5)]
  {
    assert [Some([]), Some([com5]), Some([com5]), Some([])][1..] == [Some([com5]), Some([com5]), Some([])];
    assert [Some([com5]), Some([com5]), Some([])][1..] == [Some([com5]), Some([])];
    assert [Some([com5]), Some([])][1..] == [Some([])];
    assert Paths([]) == {};
    assert Paths([com5]) == {com5.path};
    assert Arrivals([com5], {}) == [PortAdded(com5)];
    assert Departures([com5], {}) == [PortLost(com5)];
    PollIdempotent([com5]);
    assert WatchFrom([com5], [Some([])]).events == [PortLost(com5)];
    assert WatchFrom([com5], [Some([com5]), Some([])]).events == [PortLost(com5)];
    assert WatchFrom([], [Some([com5]), Some([com5]), Some([])]).events == [PortAdded(com5), PortLost(com5)];
  }
}

=== FILE: text.dfy ===
/**
 The string operations the tool relies on, with JavaScript's meaning:
 `s.split(d)` on a one-character separator, `s.indexOf(p)` and
 `s.includes(p)`, and `s.split(p)[1]` for a non-empty separator string.
 */
module Text {
  import opened Wrappers

  /** The carriage return that ends every line of the device's replies. */
  const CR: char := '\r'

  /** Glues pieces back together with `d` between neighbours (`Array.join`). */
  function Join(parts: seq<string>, d: char): string
  {
    if |parts| == 0 then ""
    else if |parts| == 1 then parts[0]
    else parts[0] + [d] + Join(parts[1..], d)
  }

  /**
   `s.split(d)`: the d-free pieces between consecutive separators.
   There is always one more piece than separators, so never zero pieces.
   */
  function Split(s: string, d: char): (parts: seq<string>)
    ensures |parts| >= 1
    ensures forall i :: 0 <= i < |parts| ==> d !in parts[i]
    ensures Join(parts, d) == s
    decreases |s|
  {
    if |s| == 0 then [""]
    else
      var rest := Split(s[1..], d);
      if s[0] == d then
        assert s == [d] + s[1..];
        [""] + rest
      else
        var parts := [[s[0]] + rest[0]] + rest[1..];
        assert parts[1..] == rest[1..];
        assert |rest| >= 2 ==> Join(rest, d) == rest[0] + [d] + Join(rest[1..], d);
        assert s == [s[0]] + s[1..];
        parts
  }

  /** A separator splits the text into the pieces on either side of it. */
  lemma {:induction false} SplitAround(x: string, d: char, y: string)
    ensures Split(x + [d] + y, d) == Split(x, d) + Split(y, d)
    decreases |x|
  {
    if |x| == 0 {
      assert x + [d] + y == [d] + y;
      assert ([d] + y)[1..] == y;
    } else {
      assert (x + [d] + y)[1..] == x[1..] + [d] + y;
      SplitAround(x[1..], d, y);
    }
  }

  /** Text without the separator is a single piece. */
  lemma {:induction false} SplitWithout(s: string, d: char)
    requires d !in s
    ensures Split(s, d) == [s]
    decreases |s|
  {
    if |s| > 0 {
      assert d !in s[1..];
      SplitWithout(s[1..], d);
      assert s == [s[0]] + s[1..];
    }
  }

  /** Splitting undoes joining, as long as no piece holds the separator. */
  lemma {:induction false} SplitJoin(parts: seq<string>, d: char)
    requires |parts| >= 1
    requires forall i :: 0 <= i < |parts| ==> d !in parts[i]
    ensures Split(Join(parts, d), d) == parts
    decreases |parts|
  {
    if |parts| == 1 {
      SplitWithout(parts[0], d);
    } else {
      SplitJoin(parts[1..], d);
      SplitWithout(parts[0], d);
      SplitAround(parts[0], d, Join(parts[1..], d));
      assert parts == [parts[0]] + parts[1..];
    }
  }

  /** `p` sits in `s` starting at index `i`. */
  predicate OccursAt(s: string, p: string, i: int)
  {
    0 <= i && i + |p| <= |s| && s[i..i + |p|] == p
  }

  /** `s.indexOf(p, from)`: the first index at or after `from` where `p` occurs. */
  function IndexOfFrom(s: string, p: string, from: nat): (r: Option<nat>)
    ensures r.Some? ==> from <= r.value && OccursAt(s, p, r.value)
    ensures r.Some? ==> forall j :: from <= j < r.value ==> !OccursAt(s, p, j)
    ensures r.None? ==> forall j :: from <= j ==> !OccursAt(s, p, j)
    decreases |s| - from
  {
    if from + |p| > |s| then None
    else if s[from..from + |p|] == p then Some(from)
    else IndexOfFrom(s, p, from + 1)
  }

  /** `s.indexOf(p)` with `None` for JavaScript's -1. */
  function IndexOf(s: string, p: string): (r: Option<nat>)
    ensures r.Some? ==> OccursAt(s, p, r.value) && forall j :: 0 <= j < r.value ==> !OccursAt(s, p, j)
    ensures r.None? <==> forall j :: !OccursAt(s, p, j)
  {
    IndexOfFrom(s, p, 0)
  }

  /** `s.includes(p)`. */
  predicate Contains(s: string, p: string)
  {
    IndexOf(s, p).Some?
  }

  /** `includes` holds exactly when the pattern occurs somewhere. */
  lemma ContainsIff(s: string, p: string)
    ensures Contains(s, p) <==> exists i :: OccursAt(s, p, i)
  {
    if Contains(s, p) {
      assert OccursAt(s, p, IndexOf(s, p).value);
    }
  }

  /** Text that holds `p + q` also holds `p`. */
  lemma ContainsPrefix(s: string, p: string, q: string)
    requires Contains(s, p + q)
    ensures Contains(s, p)
  {
    var i := IndexOf(s, p + q).value;
    assert OccursAt(s, p + q, i) && |p + q| == |p| + |q|;
    assert s[i..i + |p|] == s[i..i + |p + q|][..|p|];
    assert OccursAt(s, p, i);
    ContainsIff(s, p);
  }

  /** A pattern longer than the text never occurs in it. */
  lemma NotContainsLonger(s: string, p: string)
    requires |p| > |s|
    ensures !Contains(s, p)
  {
  }

  /** Text that equals the pattern contains it. */
  lemma ContainsSelf(p: string)
    ensures Contains(p, p)
  {
    assert p[0..|p|] == p;
    assert OccursAt(p, p, 0);
    ContainsIff(p, p);
  }

  /** An occurrence inside a prefix is an occurrence in the whole text. */
  lemma OccursInPrefix(s: string, p: string, n: nat, k: int)
    requires n <= |s|
    requires OccursAt(s[..n], p, k)
    ensures OccursAt(s, p, k)
  {
    assert s[..n][k..k + |p|] == s[k..k + |p|];
  }

  /** An occurrence inside a suffix is an occurrence in the whole text, shifted. */
  lemma OccursInSuffix(s: string, p: string, a: nat, k: int)
    requires a <= |s|
    requires OccursAt(s[a..], p, k)
    ensures OccursAt(s, p, a + k)
  {
    assert s[a..][k..k + |p|] == s[a + k..a + k + |p|];
  }

  /**
   `s.split(sep)[1]` for a non-empty `sep`: the text between the first
   occurrence of `sep` and the next one (or the end); `None` (undefined)
   when `sep` does not occur.
   */
  function SecondField(s: string, sep: string): (r: Option<string>)
    requires |sep| > 0
    ensures r.Some? <==> Contains(s, sep)
    ensures r.Some? ==>
              var start := IndexOf(s, sep).value + |sep|;
              start + |r.value| <= |s| && s[start..start + |r.value|] == r.value
    ensures r.Some? ==> !Contains(r.value, sep)
  {
    match IndexOf(s, sep)
    case None => None
    case Some(i) =>
      var rest := s[i + |sep|..];
      match IndexOf(rest, sep)
      case None =>
        assert s[i + |sep|..i + |sep| + |rest|] == rest;
        Some(rest)
      case Some(j) =>
        FieldIsClean(rest, sep, j);
        assert s[i + |sep|..i + |sep| + j] == rest[..j];
        Some(rest[..j])
  }

  /** The field ends at the end of the text or where the separator occurs again. */
  lemma SecondFieldEnd(s: string, sep: string)
    requires |sep| > 0 && Contains(s, sep)
    ensures var start := IndexOf(s, sep).value + |sep|;
            var r := SecondField(s, sep).value;
            start + |r| == |s| || OccursAt(s, sep, start + |r|)
  {
    var i := IndexOf(s, sep).value;
    var rest := s[i + |sep|..];
    match IndexOf(rest, sep)
    case None =>
      assert SecondField(s, sep).value == rest;
    case Some(j) =>
      assert |SecondField(s, sep).value| == j;
      assert OccursAt(rest, sep, j);
      OccursInSuffix(s, sep, i + |sep|, j);
  }

  /** The text before the first occurrence of `p` does not contain `p`. */
  lemma FieldIsClean(rest: string, p: string, j: nat)
    requires |p| > 0
    requires IndexOf(rest, p) == Some(j)
    ensures !Contains(rest[..j], p)
  {
    if Contains(rest[..j], p) {
      var k := IndexOf(rest[..j], p).value;
      OccursInPrefix(rest, p, j, k);
      assert false;
    }
  }
}

=== FILE: transaction.dfy ===
/**
 The data handler of `run_serial_command` in src/c550_lib.js, as a fold
 over the chunks the port delivers. Every chunk is appended to the
 accumulated text and the whole text is handed to the classifier; an Ok
 or Failed verdict settles the result and closes the port, anything else
 leaves the result as it was. A result nobody settles stays a timeout.
 */
module Transaction {
  import opened Wrappers
  import opened Classifiers

  /** The object the transaction's promise resolves to. */
  datatype TxResult = TxResult(code: Status, output: string, ssid: Option<string>)

  /** A classifier as the data handler calls it; `None` stands for a thrown exception. */
  type Classifier = string -> Option<Verdict>

  /** What the port did: it never opened, or it opened and delivered these chunks before it closed. */
  datatype Link = OpenFailed | Opened(chunks: seq<string>)

  /** The handler's state: the command, the result so far, the accumulated text, and whether the port is still open. */
  datatype Session = Session(command: string, result: TxResult, buffer: string, open: bool)

  const PassedOutput: string := "Test Passed"

  /** The output text of a transaction that did not succeed. */
  function FailedOutput(command: string): string
  {
    "Failed command: " + command
  }

  /** The result before any data arrives: a timeout naming the command. */
  function Initial(command: string): (r: TxResult)
    ensures r.code == TimedOut && r.ssid.None?
  {
    TxResult(TimedOut, FailedOutput(command), None)
  }

  /** A verdict that closes the port. */
  predicate Terminal(v: Option<Verdict>)
  {
    v.Some? && (v.value.code == Ok || v.value.code == Failed)
  }

  /**
   The relation every session keeps: while open, the result is untouched;
   once closed, it is either a success carrying the classifier's data or
   the initial result with its code turned into Failed.
   */
  predicate Consistent(s: Session)
  {
    if s.open then s.result == Initial(s.command)
    else
      || (s.result.code == Ok && s.result.output == PassedOutput)
      || s.result == Initial(s.command).(code := Failed)
  }

  /**
   One `data` event. A closed port delivers nothing more; an open one
   appends the chunk, and it closes exactly when the classifier's verdict on
   the whole text is terminal. The handler keeps every session consistent.
   */
  function OnData(cls: Classifier, s: Session, chunk: string): (r: Session)
    ensures !s.open ==> r == s
    ensures r.command == s.command
    ensures s.open ==> r.buffer == s.buffer + chunk
    ensures s.open ==> (r.open <==> !Terminal(cls(s.buffer + chunk)))
    ensures r.open ==> r.result == s.result
    ensures Consistent(s) ==> Consistent(r)
  {
    if !s.open then s
    else
      var buffer := s.buffer + chunk;
      var v := cls(buffer);
      if v.Some? && v.value.code == Ok then
        Session(s.command, TxResult(Ok, PassedOutput, v.value.ssid), buffer, false)
      else if v.Some? && v.value.code == Failed then
        Session(s.command, s.result.(code := Failed), buffer, false)
      else
        s.(buffer := buffer)
  }

  /** The data events of one transaction, in order. */
  function Feed(cls: Classifier, s: Session, chunks: seq<string>): (r: Session)
    requires Consistent(s)
    ensures Consistent(r) && r.command == s.command
    ensures !s.open ==> r == s
    decreases |chunks|
  {
    if |chunks| == 0 then s
    else Feed(cls, OnData(cls, s, chunks[0]), chunks[1..])
  }

  /** `run_serial_command` with the port's behaviour given as a `Link`. */
  function Run(cls: Classifier, command: string, link: Link): (r: TxResult)
    ensures r.code == Ok || r.code == Failed || r.code == TimedOut
    ensures r.code == Ok ==> r.output == PassedOutput
    ensures r.code != Ok ==> r.output == FailedOutput(command) && r.ssid.None?
    ensures link.OpenFailed? ==> r == Initial(command)
  {
    match link
    case OpenFailed => Initial(command)
    case Opened(chunks) => Feed(cls, Session(command, Initial(command), "", true), chunks).result
  }

  /** The texts the classifier sees: the accumulated buffer after each chunk. */
  function Buffers(start: string, chunks: seq<string>): (bufs: seq<string>)
    ensures |bufs| == |chunks|
    decreases |chunks|
  {
    if |chunks| == 0 then []
    else [start + chunks[0]] + Buffers(start + chunks[0], chunks[1..])
  }

  /** All chunks glued together. */
  function Concat(chunks: seq<string>): string
  {
    if |chunks| == 0 then "" else chunks[0] + Concat(chunks[1..])
  }

  /** Each buffer is the start text followed by every chunk received so far. */
  lemma {:induction false} BuffersAccumulate(start: string, chunks: seq<string>, i: int)
    requires 0 <= i < |chunks|
    ensures Buffers(start, chunks)[i] == start + Concat(chunks[..i + 1])
    decreases |chunks|
  {
    if i == 0 {
      assert chunks[..1] == [chunks[0]];
      assert Concat(chunks[..1]) == chunks[0] + Concat([]);
    } else {
      BuffersAccumulate(start + chunks[0], chunks[1..], i - 1);
      assert chunks[..i + 1] == [chunks[0]] + chunks[1..][..i];
      assert chunks[..i + 1][1..] == chunks[1..][..i];
    }
  }

  /** The first buffer that the classifier settles is number `i`. */
  predicate FirstTerminal(cls: Classifier, bufs: seq<string>, i: int)
  {
    && 0 <= i < |bufs|
    && Terminal(cls(bufs[i]))
    && forall j :: 0 <= j < i ==> !Terminal(cls(bufs[j]))
  }

  /**
   An open session stays open exactly as long as no accumulated buffer is
   settled by the classifier; the first settled buffer fixes the result.
   */
  lemma {:induction false} FeedSettles(cls: Classifier, s: Session, chunks: seq<string>)
    requires s.open && Consistent(s)
    ensures var r := Feed(cls, s, chunks);
            var bufs := Buffers(s.buffer, chunks);
            && (r.open <==> forall i :: 0 <= i < |bufs| ==> !Terminal(cls(bufs[i])))
            && (r.open ==> r.result == s.result)
            && (!r.open ==>
                  exists i :: && FirstTerminal(cls, bufs, i)
                              && r.result.code == cls(bufs[i]).value.code
                              && (r.result.code == Ok ==> r.result.ssid == cls(bufs[i]).value.ssid))
    decreases |chunks|
  {
    var r := Feed(cls, s, chunks);
    var bufs := Buffers(s.buffer, chunks);
    if |chunks| > 0 {
      var next := OnData(cls, s, chunks[0]);
      var tail := Buffers(s.buffer + chunks[0], chunks[1..]);
      assert bufs == [s.buffer + chunks[0]] + tail;
      if Terminal(cls(bufs[0])) {
        assert !next.open;
        assert r == Feed(cls, next, chunks[1..]) == next;
        assert FirstTerminal(cls, bufs, 0);
        assert bufs == Buffers(s.buffer, chunks);
        assert r == Feed(cls, s, chunks);
        assert (r.open <==> forall i :: 0 <= i < |bufs| ==> !Terminal(cls(bufs[i])));
      } else {
        assert next == s.(buffer := s.buffer + chunks[0]);
        FeedSettles(cls, next, chunks[1..]);
        assert r == Feed(cls, next, chunks[1..]);
        if r.open {
          forall i | 0 <= i < |bufs|
            ensures !Terminal(cls(bufs[i]))
          {
            if i > 0 { assert bufs[i] == tail[i - 1]; }
          }
        } else {
          var k :| && FirstTerminal(cls, tail, k)
                   && r.result.code == cls(tail[k]).value.code
                   && (r.result.code == Ok ==> r.result.ssid == cls(tail[k]).value.ssid);
          assert bufs[k + 1] == tail[k];
          forall j | 0 <= j < k + 1
            ensures !Terminal(cls(bufs[j]))
          {
            if j > 0 { assert bufs[j] == tail[j - 1]; }
          }
          assert FirstTerminal(cls, bufs, k + 1);
        }
      }
    }
  }

  /**
   The result code starts as a timeout and changes only when the classifier,
   applied to the whole text accumulated so far, says Ok or Failed; the first
   such verdict is the one that counts, and only Ok copies the data.
   */
  lemma RunSettles(cls: Classifier, command: string, chunks: seq<string>)
    ensures var r := Run(cls, command, Opened(chunks));
            var bufs := Buffers("", chunks);
            && (r.code == TimedOut <==> forall i :: 0 <= i < |bufs| ==> !Terminal(cls(bufs[i])))
            && (r.code != TimedOut ==>
                  exists i :: && FirstTerminal(cls, bufs, i)
                              && r.code == cls(bufs[i]).value.code
                              && (r.code == Ok ==> r.ssid == cls(bufs[i]).value.ssid))
  {
    var s := Session(command, Initial(command), "", true);
    FeedSettles(cls, s, chunks);
  }

  /** Gluing splits at any point. */
  lemma {:induction false} ConcatSplit(chunks: seq<string>, k: int)
    requires 0 <= k <= |chunks|
    ensures Concat(chunks) == Concat(chunks[..k]) + Concat(chunks[k..])
    decreases |chunks|
  {
    if k > 0 {
      ConcatSplit(chunks[1..], k - 1);
      assert chunks[..k][1..] == chunks[1..][..k - 1];
      assert chunks[1..][k - 1..] == chunks[k..];
    } else {
      assert chunks[k..] == chunks;
    }
  }

  /** An acknowledgement classifier (`parse_ota_len_cb`, `parse_ota_data_cb`) wrapped for the data handler. */
  function AckClassifier(ack: string, fail: string): Classifier
  {
    data => Some(Verdict(AckVerdict(data, ack, fail), None))
  }

  /**
   With an acknowledgement classifier, the transaction ends with the verdict
   on everything received, or a timeout when that verdict is still Pending.
   */
  lemma AckTransaction(ack: string, fail: string, command: string, chunks: seq<string>)
    ensures var v := AckVerdict(Concat(chunks), ack, fail);
            Run(AckClassifier(ack, fail), command, Opened(chunks)).code == if v == Pending then TimedOut else v
  {
    var cls := AckClassifier(ack, fail);
    var r := Run(cls, command, Opened(chunks));
    var bufs := Buffers("", chunks);
    var v := AckVerdict(Concat(chunks), ack, fail);
    RunSettles(cls, command, chunks);
    if r.code == TimedOut {
      if |chunks| == 0 {
        assert CompletedLines("") == [];
      } else {
        var last := |chunks| - 1;
        BuffersAccumulate("", chunks, last);
        assert chunks[..last + 1] == chunks;
        assert !Terminal(cls(bufs[last]));
        assert bufs[last] == "" + Concat(chunks);
        assert "" + Concat(chunks) == Concat(chunks);
      }
    } else {
      var i :| && FirstTerminal(cls, bufs, i)
               && r.code == cls(bufs[i]).value.code;
      BuffersAccumulate("", chunks, i);
      ConcatSplit(chunks, i + 1);
      assert "" + Concat(chunks[..i + 1]) == Concat(chunks[..i + 1]);
      AckVerdictStable(Concat(chunks[..i + 1]), Concat(chunks[i + 1..]), ack, fail);
    }
  }
}

=== FILE: wrappers.dfy ===
/** Optional values: the model's stand-in for JavaScript's `undefined`. */
module Wrappers {

  datatype Option<+T> = None | Some(value: T)
}
